=== FILE: README.md ===
# SIGAA timetable planner core, in Dafny

A model of the core of `app.py`, a planner that reads the SIGAA "Lista de
Turmas" catalog, decodes its compact schedule codes (`35M23`, `24T12 6M34`)
into one-hour blocks, and builds a weekly timetable from the sections a
student picks, warning about clashes and repeated components.

The model is a set of pure functions over explicit values; the session
state of the application becomes an argument and a result.

| module | models |
|---|---|
| `Wrappers` | `Option`, for missing table entries and non-string inputs |
| `Text` | Python's `str.isspace`, `split()`, `strip()` and `replace(pat, '')` |
| `Tables` | `DIAS_SEMANA`, `HORARIOS`, `MAPA_DIAS_SIGAA`, `MAPA_HORA_SIGAA` |
| `Sorting` | `list.sort()` on the hours of one code |
| `Decoder` | `parse_sigaa_horario`: fragments, the regular expression, the expansion |
| `Catalog` | the row walk of `extrair_dados_html`, as a left-to-right scan that carries the current component |
| `Colour` | `gerar_cor_por_string` from the digest bytes on |
| `Enrollments` | the enrollment list, `adicionar_turma_a_grade`, `remover_matricula` |
| `Conflict` | `verificar_problemas` |
| `Grid` | `construir_grade_visual` |

The regular expression `([2-7]+)([MTN])([1-6]+)` is modelled as a scan.
The scan takes the longest run of day digits, one shift letter, and the
longest run of slot digits. The three classes are disjoint, so this is the
greedy match; `Decoder.MatchIsRegex` proves it.

Points of the code's behaviour worth stating, because a reader might expect
otherwise:

- The decoder returns a list, not a set. Repeated blocks are kept (`2M11`
  gives two identical records), and the order is fixed: fragments in input
  order, then days in digit order, then hours ascending.
- A colour channel is `(b % 128) + 127`, so it lies in 127..254: 255 cannot
  be reached (`Colour.ChannelMaximum`).
- The grid applies the conflict style whenever a cell is written a second
  time, even when the same enrollment lists a block twice
  (`Grid.SelfConflict`), not only when two different enrollments meet.
- The time-clash warning names the first clashing candidate in list order.
- A catalog row with no decodable hour is dropped without a count.

## Model

| member | source | states |
|---|---|---|
| `Tables.DayIndex` | app.py:14-16 | A character is a SIGAA day digit exactly when it is '2'..'7'. Its day index is the digit minus one, in 1..6, so Sunday is never produced. |
| `Tables.SlotHour` | app.py:20-24 | A slot digit has an hour exactly when the shift's table lists it: M 1-5, T 1-6, N 1-4. The hour is the shift's first hour plus the digit minus one, in 7..22. |
| `Text.SplitKeepsText` | app.py:37 | `split()` loses no non-whitespace character: the fragments, joined, are the text with its whitespace removed. |
| `Text.SplitBlank` | app.py:33-37 | `split()` yields no fragment exactly when the text is all whitespace. |
| `Text.SplitAcrossSpace` | app.py:37 | A whitespace character separates fragments: split of `a + [c] + b` is split of `a` followed by split of `b`. |
| `Text.SplitWord` | app.py:37 | A non-empty text without whitespace is one fragment. |
| `Text.Split` | app.py:37 | Every fragment of `split()` is non-empty and free of whitespace. What the fragments are is stated by `Text.SplitKeepsText`, `Text.SplitBlank`, `Text.SplitAcrossSpace` and `Text.SplitWord`. |
| `Text.Strip` | app.py:33 | The result is a slice of the input with only whitespace cut off at each end, and neither of its ends is whitespace. |
| `Text.StripBlank` | app.py:33 | `strip()` is empty exactly when the text is all whitespace. |
| `Text.RemoveAllAbsent` | app.py:94 | `replace(pat, '')` leaves a text with no occurrence of `pat` unchanged. |
| `Text.RemoveAllAfterPrefix` | app.py:94 | The first occurrence of the pattern is removed, the text before it is kept, and the scan resumes right after it. Together with `Text.RemoveAllAbsent` it covers every text: one with no occurrence, and one split at its first occurrence. |
| `Text.RemoveAll` | app.py:94 | `replace(pat, '')` never lengthens the text. Which characters it removes is stated, for every text, by `Text.RemoveAllAbsent` and `Text.RemoveAllAfterPrefix`. |
| `Sorting.Insert` | app.py:63 | Inserting into an ascending list gives an ascending list with one more element, whose multiset gains exactly that element. |
| `Sorting.Sort` | app.py:63 | The result is ascending and a permutation of the input. |
| `Sorting.SortedUnique` | app.py:63 | Two ascending permutations of the same list are equal, so any correct sort agrees with `Sort`. |
| `Decoder.Match` | app.py:41-46 | A match is a well-formed code (day digits, a shift letter, slot digits), and its text is a prefix of the fragment. |
| `Decoder.MatchIsRegex` | app.py:41-46 | The scan succeeds exactly when some prefix of the fragment fits the grammar. Its groups are the longest day run and, after the shift letter, the longest slot run. |
| `Decoder.TrailingTextIgnored` | app.py:44-46 | A well-formed code followed by any text not starting with a slot digit matches as that code. |
| `Decoder.Hours` | app.py:56-60 | There is at most one hour per slot digit, each in 7..22, and exactly one per digit when the shift's table lists them all. |
| `Decoder.HoursOfDigit` | app.py:57-60 | One slot digit gives the hour its shift's table lists for it, or no hour when the table lacks it. |
| `Decoder.HoursFromTable` | app.py:56-60 | An hour is among the hours of a slot run exactly when the shift's table gives it to some digit of the run. |
| `Decoder.HoursSkipUnmapped` | app.py:57-60 | A slot digit the table lacks is dropped alone: the digits around it decode as if it were absent. |
| `Decoder.SortedHours` | app.py:62-63 | The hours of a code come out ascending and are a permutation of the mapped hours, each in 7..22. |
| `Decoder.DecodeFragment` | app.py:44-46 | A fragment that does not match the grammar contributes nothing. |
| `Decoder.DecodeFragmentValid` | app.py:49-75 | Every record a fragment yields ends one hour after it starts, starts in 7..22 and names Monday..Saturday. |
| `Decoder.Decode` | app.py:33-76 | Every record ends one hour after it starts, starts in 7..22 and names Monday..Saturday. A blank text gives no record. |
| `Decoder.ParseHorario` | app.py:33-34 | A value that is not a string gives no record, and neither does a blank string. |
| `Decoder.DecodeAllAppend` | app.py:37-75 | Decoding a list of fragments is a concatenation: the records of `a + b` are those of `a` followed by those of `b`. |
| `Decoder.DecodeIsFragments` | app.py:37-45 | The result is the concatenation of each whitespace-separated fragment's records, in input order. |
| `Decoder.DecodeAcrossSpace` | app.py:37-45 | Decoding `a + [c] + b` around a whitespace `c` gives the records of `a` followed by those of `b`. |
| `Decoder.BadFragmentSkipped` | app.py:43-45 | A fragment that does not start with the grammar adds nothing and does not stop the fragments around it from decoding. |
| `Decoder.DecodeMatchedPrefix` | app.py:44-46 | A matched fragment decodes exactly as the text its three groups cover. |
| `Decoder.FragmentCount` | app.py:49-75 | A matched fragment yields (number of day digits) × (number of slot digits the shift's table lists) records. |
| `Decoder.ExpandLayout` | app.py:49-75 | With m hours per day, record i·m+j is day digit i at the j-th hour of the ascending hour list: days in digit order, each with all the code's hours. The index i·m+j is written `Offset(i, m) + j`, and `Decoder.OffsetIsProduct` proves the two equal. |
| `Decoder.Expand` | app.py:49-75 | The day-by-hour expansion of one matched code. It has no contract of its own: `Decoder.ExpandLayout`, `Decoder.RecordHourFromDigit`, `Decoder.DigitHourDecoded` and `Decoder.FragmentCount` state its layout, hours and length. |
| `Decoder.SortedHoursFromTable` | app.py:56-63 | The sorted hours of a code are exactly the table's hours for its slot digits. |
| `Decoder.RecordHourFromDigit` | app.py:49-75 | Record i·m+j of a code is on day digit i's day, lasts one hour, and starts at the table hour of some slot digit of the code. |
| `Decoder.DigitHourDecoded` | app.py:49-75 | For every day digit and every slot digit the shift's table lists, the code yields that day's one-hour record at that digit's hour. |
| `Decoder.ExpandHoursAscending` | app.py:62-75 | Within one day of one code (the records `Offset(i, m) + j`), the start hours are ascending. |
| `Decoder.RepeatedSlotKept` | app.py:56-75 | `2M11` decodes to two identical Monday 7-8 records: duplicates are kept. |
| `Decoder.MalformedCodeSkipped` | app.py:41-45 | `9X99` (unknown day digit and shift letter) decodes to nothing. |
| `Catalog.ComponentName` | app.py:93-94 | The component name of a header has no whitespace at either end and is no longer than the header text. |
| `Catalog.HeaderSuffixRemoved` | app.py:93-94 | A header made of a name, `(GRADUAÇÃO)` and a tail announces the name and tail with the suffix removed, stripped. The suffix must first occur right after the name, and not at all in the tail. The name may contain '(' or any other text. |
| `Catalog.ParenthesisInName` | app.py:93-94 | The header `FÍSICA (TEÓRICA) (GRADUAÇÃO)` announces `FÍSICA (TEÓRICA)`: a '(' in the name does not stop the removal. |
| `Catalog.RowOutput` | app.py:96-129 | Header and other rows add nothing, and neither do hidden rows, rows with seven cells or fewer, or rows before any component. A kept row adds one offering per decoded record of its seventh cell, with the current component and the section, instructor, location and code cells. |
| `Catalog.Extract` | app.py:83-129 | Every offering names a non-empty, stripped component and holds a valid one-hour block. |
| `Catalog.WalkValid` | app.py:88-129 | The same holds for the walk from any current component, not only from the start of the table. |
| `Catalog.WalkAppend` | app.py:88-129 | The walk is one left-to-right pass: the output for `a + b` is that of `a` followed by that of `b`, under the component `a` leaves current. |
| `Catalog.LeadingRowsDropped` | app.py:84-108 | Rows before the first header add nothing. |
| `Catalog.RowInContext` | app.py:88-129 | In any table, a row's offerings are exactly what it adds under the component the rows before it leave current, placed between the offerings of the rows around it. |
| `Catalog.NextComponent` | app.py:91-94 | A row that is not a header leaves the current component as it is. A header replaces it with a name no longer than the header text; `Catalog.ComponentName` and `Catalog.HeaderSuffixRemoved` state which name. |
| `Catalog.Walk` | app.py:88-129 | The row walk from a given current component. It has no contract of its own: `Catalog.WalkValid`, `Catalog.WalkAppend`, `Catalog.RowInContext` and `Catalog.OfferingComponent` state its output. |
| `Catalog.NoHeaderKeeps` | app.py:88-129 | Rows that are not headers never change the current component: only the header branch assigns `disciplina_atual`. |
| `Catalog.LastHeaderCurrent` | app.py:88-94 | After a header and any run of rows without a header, the current component is that header's name, whatever came before it. |
| `Catalog.OfferingComponent` | app.py:88-129 | A section row adds its offerings under the name of the last header above it, and every one of them names that component: the header text with `(GRADUAÇÃO)` removed, stripped. |
| `Colour.Channel` | app.py:144-146 | A channel is the byte modulo 128 plus 127, so it lies in 127..254. |
| `Colour.ColourOf` | app.py:141-147 | The colour is '#' followed by six upper-case hex digits. |
| `Colour.Hex2RoundTrip` | app.py:147 | Two hex digits written by `%02X` read back as the value written. |
| `Colour.ColourChannels` | app.py:144-147 | The three digit pairs of the colour read back as the channels of the three digest bytes. |
| `Colour.ChannelMaximum` | app.py:144-146 | No byte gives channel 255; bytes 127 and 255 give the top value, 254. |
| `Enrollments.FourDigits` | app.py:175 | The number is written as four decimal digits, the first not zero, that read back as the number. |
| `Enrollments.MakeId` | app.py:175 | The id is the component name, '_', the section, '_' and the four digits of the drawn number. |
| `Enrollments.MakeIdReadsBack` | app.py:175 | The drawn number reads back from the id's last four characters. |
| `Enrollments.MakeIdDistinct` | app.py:175 | Ids drawn for the same name and section with different numbers differ. |
| `Enrollments.Add` | app.py:172-182 | Exactly one enrollment is appended, carrying the section's fields, the colour of the name and the id. Earlier entries are unchanged, whatever they conflict with. |
| `Enrollments.Remove` | app.py:185-188 | Removal never lengthens the list. That it keeps exactly the other ids, in order, is stated by `Enrollments.RemoveContents` and `Enrollments.RemoveAppend`. |
| `Enrollments.RemoveContents` | app.py:185-188 | No remaining entry has the id, and an entry remains exactly when it was in the list with another id. |
| `Enrollments.RemoveAppend` | app.py:185-188 | Removal filters element by element and keeps order: removing from `a + b` is removing from each part. |
| `Enrollments.RemoveAbsent` | app.py:185-188 | Removing an id no entry has changes nothing. |
| `Enrollments.RemoveIdempotent` | app.py:185-188 | Removing twice is removing once. |
| `Enrollments.RemoveUndoesAdd` | app.py:172-188 | Removing an enrollment just added, under an id no earlier entry has, gives back the list as it was. |
| `Enrollments.Occupied` | app.py:151-155 | A block is occupied exactly when some enrollment lists it. |
| `Conflict.FirstClash` | app.py:157-162 | No clash is found exactly when no candidate is occupied. Otherwise the clash is the first occupied candidate in list order. |
| `Conflict.Check` | app.py:149-170 | There are at most two warnings. A time clash comes first exactly when some candidate is occupied, and it names the first occupied candidate. A repeated-component warning comes last exactly when the component is enrolled, and it always names the checked component. No warning means no overlap and a new component. |
| `Conflict.CheckAfterAdd` | app.py:149-182 | Checking a section against the list it was just added to gives the clash of its first block (if it has one) and the repeated-component warning. |
| `Grid.ShortName` | app.py:200 | A name without '-' is shown whole. Otherwise the shown name is the stripped text before the first '-', with no '-' and no whitespace at either end. |
| `Grid.ApplyToWritten` | app.py:204-207 | Writes into a cell that has text only append a separator and the new short name to its text, and set the conflict style. |
| `Grid.RenderAt` | app.py:194-210 | Every cell of the grid is its starting content after exactly the writes aimed at it, in enrollment and block order. |
| `Grid.Build` | app.py:191-212 | The grid has 17 hour rows (7:00 to 23:00) of 7 day columns each. What each cell holds is stated by `Grid.RenderAt`, `Grid.BuildCell` and `Grid.BuildCellOwner`. |
| `Grid.BuildCell` | app.py:191-212 | A cell whose block is listed n times (over all enrollments) behaves as follows. It is non-empty exactly when some enrollment lists the block. With n = 0 it is empty. With n = 1 it holds `short\n(turma)` in the writer's colour. With n ≥ 2 it holds the first label followed by the later short names, in the conflict style. Its style is the conflict style exactly when n ≥ 2. |
| `Grid.BuildCellOwner` | app.py:202-210 | The first enrollment listing a block opens the cell's text with its label, and the cell has that enrollment's colour exactly when the block is listed once. |
| `Grid.SelfConflict` | app.py:202-207 | One enrollment listing a shown block twice turns its own cell into a conflict. |
| `Grid.HiddenHoursIgnored` | app.py:203 | An enrollment whose blocks all lie outside 7..23 leaves the grid unchanged. |

## Left out

- The HTML parsing is not modelled. This covers BeautifulSoup, the table lookup by id, reading a row's classes and style, and `get_text(strip=True)`. A row reaches the walk already classified, with its cell texts and hidden flag. A row carrying both the header class and a section class counts as a header, as in the code.
- The file upload, its windows-1252 decoding, pandas DataFrames and the Streamlit interface (app.py:216-331) are not modelled. That includes turning catalog records into `(day index, hour)` blocks with `DIAS_SEMANA.index`.
- `inicializar_estado` (app.py:135-139) and `st.rerun()` only manage session state, which the model passes explicitly.
- MD5 is not modelled. `Colour.ColourOf` takes the digest's first three bytes as arguments.
- `random.randint(1000, 9999)` is not modelled: the drawn number is an argument. The code does not make ids unique, so `Enrollments.RemoveUndoesAdd` requires a fresh id.
- Warnings keep their day index and hour, or the component name, but not the message text or emoji.
- The CSS text of the two cell styles is not modelled. A style is either an enrollment's colour or the conflict style.
- `Catalog.ComponentName`: its contract states only that the result is stripped and no longer than the header text. The exact removal of `(GRADUAÇÃO)` is proved separately, in `Catalog.HeaderSuffixRemoved`, for headers whose suffix first occurs after the name and not again after it.
- `Grid.Build`: requires every block's day index to be in 0..6. The code writes a cell with `df_visual.iat[hora - 7, dia_idx]` (app.py:204), a positional index into the 7 day columns. That index wraps to a column from the right for -7..-1 and raises for 7 or more or below -7, and it is reached only for hours in 7..23. The model covers neither the wrap nor the exception. Blocks built from `DIAS_SEMANA.index` always satisfy the requirement.
- `Grid.Build`: its own contract gives only the grid's shape. The cell contents are stated in `Grid.RenderAt`, `Grid.BuildCell` and `Grid.BuildCellOwner`.
- `Enrollments.Remove`: its own contract gives only the length bound. The filter is stated in `Enrollments.RemoveContents` and `Enrollments.RemoveAppend`, to keep quantified facts off the recursive function.
- `Text.Split`: its own contract says only that each fragment is a word. The fragments themselves are pinned down by `Text.SplitKeepsText`, `Text.SplitBlank`, `Text.SplitAcrossSpace` and `Text.SplitWord`.
- `Text.RemoveAll`: its own contract gives only the length bound. The removal is stated in `Text.RemoveAllAbsent` (no occurrence) and `Text.RemoveAllAfterPrefix` (the first occurrence), which together cover every text.
- `Decoder.Expand`: has no contract of its own. Its records are stated by `Decoder.ExpandLayout`, `Decoder.RecordHourFromDigit`, `Decoder.DigitHourDecoded` and `Decoder.FragmentCount`.
- `Catalog.Walk`: has no contract of its own. Its output is stated by `Catalog.WalkValid`, `Catalog.WalkAppend`, `Catalog.RowInContext` and `Catalog.OfferingComponent`.
- `Catalog.NextComponent`: its contract bounds a header's name only by the header's length. The name itself is `Catalog.ComponentName`, and `Catalog.LastHeaderCurrent` carries it through the walk.
- `Enrollments.MakeId`: writes the number only for 1000..9999, the range `randint` draws from.
- `Conflict.Check`: a clashing block's day index is kept as a number. The code looks the day name up with `DIAS_SEMANA[day]` (app.py:159), which raises for an index of 7 or more or below -7 and wraps for -7..-1. The model does not model that exception or the wrap, because the message text is not modelled; blocks built from `DIAS_SEMANA.index` have indices in 0..6.
- `adaptador.py` is not part of this model.

=== FILE: catalog.dfy ===
/** The catalog row walk of `extrair_dados_html`. The HTML table is given as
    the sequence of its rows, each already classified: a component header
    (class `destaque`), a section row (class `linhaPar`/`linhaImpar`, with
    its hidden flag and its cell texts) or any other row. */
module Catalog {
  import opened Text
  import opened Decoder

  datatype Row =
    | Header(text: string)
    | Data(hidden: bool, cols: seq<string>)
    | Other

  /** One catalog line: one decoded hour of one section. */
  datatype Offering = Offering(
    componente: string,
    turma: string,
    docente: string,
    local: string,
    dia: string,
    inicio: int,
    fim: int,
    horarioOriginal: string)

  /** The level suffix the header text carries. */
  const Graduacao: string := "(GRADUAÇÃO)"

  /** A current component: empty before the first header, a stripped
      header text after. */
  type Name = s: string | Trimmed(s) witness []

  /** An offering the walk can produce: it names a component and holds one
      of the decoder's hour blocks. */
  predicate ValidOffering(o: Offering) {
    && o.componente != [] && Trimmed(o.componente)
    && ValidRecord(Record(o.dia, o.inicio, o.fim))
  }

  /** The component a header row announces: its text with the suffix
      removed, stripped. */
  function ComponentName(text: string): (r: Name)
    ensures |r| <= |text|
  {
    Strip(RemoveAll(text, Graduacao))
  }

  /** The offerings of one section row, one per decoded hour. */
  function Offerings(cur: string, cols: seq<string>, blocks: seq<Record>): (r: seq<Offering>)
    requires |cols| > 7
    ensures |r| == |blocks|
    ensures forall k :: 0 <= k < |r| ==>
              r[k] == Offering(cur, cols[1], cols[2], cols[7],
                               blocks[k].dia, blocks[k].inicio, blocks[k].fim, cols[6])
  {
    seq(|blocks|, k requires 0 <= k < |blocks| =>
      Offering(cur, cols[1], cols[2], cols[7], blocks[k].dia, blocks[k].inicio, blocks[k].fim, cols[6]))
  }

  /** Whether a section row is kept: it is visible, has more than seven
      cells and comes under a (non-empty) component. */
  predicate Kept(cur: string, hidden: bool, cols: seq<string>) {
    !hidden && |cols| > 7 && cur != []
  }

  /** What one row adds to the catalog under the current component `cur`:
      a kept section row adds one offering per decoded hour of its seventh
      cell, carrying `cur`, the section, instructor and location cells;
      every other row adds nothing. */
  function RowOutput(cur: Name, row: Row): (r: seq<Offering>)
    ensures !row.Data? ==> r == []
    ensures row.Data? && !Kept(cur, row.hidden, row.cols) ==> r == []
    ensures row.Data? && Kept(cur, row.hidden, row.cols) ==>
              var blocks := Decode(row.cols[6]);
              && |r| == |blocks|
              && forall k :: 0 <= k < |r| ==>
                   && r[k].componente == cur
                   && r[k].turma == row.cols[1]
                   && r[k].docente == row.cols[2]
                   && r[k].local == row.cols[7]
                   && r[k].horarioOriginal == row.cols[6]
                   && Record(r[k].dia, r[k].inicio, r[k].fim) == blocks[k]
    ensures forall k :: 0 <= k < |r| ==> ValidOffering(r[k])
  {
    match row
    case Data(hidden, cols) =>
      if Kept(cur, hidden, cols) then Offerings(cur, cols, Decode(cols[6])) else []
    case _ => []
  }

  /** The current component after a row: a header replaces it with its
      own name, any other row leaves it. */
  function NextComponent(cur: Name, row: Row): (r: Name)
    ensures !row.Header? ==> r == cur
    ensures row.Header? ==> |r| <= |row.text|
  {
    match row
    case Header(text) => ComponentName(text)
    case _ => cur
  }

  /** A left-to-right pass over `xs` carrying a state: each element adds
      `out(state, x)` to the output and moves the state to `next(state, x)`. */
  function Scan<S, X, Y>(out: (S, X) -> seq<Y>, next: (S, X) -> S, xs: seq<X>, st: S): seq<Y> {
    if xs == [] then [] else out(st, xs[0]) + Scan(out, next, xs[1..], next(st, xs[0]))
  }

  /** The state a pass leaves. */
  function Final<S, X>(next: (S, X) -> S, xs: seq<X>, st: S): S {
    if xs == [] then st else Final(next, xs[1..], next(st, xs[0]))
  }

  /** The current component after a run of rows. */
  function ComponentAfter(rows: seq<Row>, cur: Name): Name {
    Final(NextComponent, rows, cur)
  }

  /** The row walk from current component `cur`. */
  function Walk(rows: seq<Row>, cur: Name): seq<Offering> {
    Scan(RowOutput, NextComponent, rows, cur)
  }

  /** Every offering of the walk is well formed. */
  lemma {:induction false} WalkValid(rows: seq<Row>, cur: Name)
    ensures forall k :: 0 <= k < |Walk(rows, cur)| ==> ValidOffering(Walk(rows, cur)[k])
  {
    if rows != [] {
      var here := RowOutput(cur, rows[0]);
      var rest := Walk(rows[1..], NextComponent(cur, rows[0]));
      WalkValid(rows[1..], NextComponent(cur, rows[0]));
      assert Walk(rows, cur) == here + rest;
      forall k | 0 <= k < |here + rest| ensures ValidOffering((here + rest)[k]) {
        if k < |here| {
          assert (here + rest)[k] == here[k];
        } else {
          assert (here + rest)[k] == rest[k - |here|];
        }
      }
    }
  }

  /** `extrair_dados_html` on the table's rows: the walk starts with no
      current component. */
  function Extract(rows: seq<Row>): (r: seq<Offering>)
    ensures forall k :: 0 <= k < |r| ==> ValidOffering(r[k])
  {
    WalkValid(rows, []);
    Walk(rows, [])
  }

  // ---------------------------------------------------------------------
  // Properties of the walk

  lemma {:induction false} ScanAppend<S, X, Y>(out: (S, X) -> seq<Y>, next: (S, X) -> S,
                                               a: seq<X>, b: seq<X>, st: S)
    ensures Scan(out, next, a + b, st) == Scan(out, next, a, st) + Scan(out, next, b, Final(next, a, st))
  {
    if a == [] {
      assert a + b == b;
    } else {
      assert (a + b)[0] == a[0];
      assert (a + b)[1..] == a[1..] + b;
      ScanAppend(out, next, a[1..], b, next(st, a[0]));
    }
  }

  /** The walk is a left-to-right pass: the output of `a + b` is the output
      of `a` followed by that of `b` under the component `a` leaves. */
  lemma WalkAppend(a: seq<Row>, b: seq<Row>, cur: Name)
    ensures Walk(a + b, cur) == Walk(a, cur) + Walk(b, ComponentAfter(a, cur))
  {
    ScanAppend(RowOutput, NextComponent, a, b, cur);
  }

  /** Section rows met while there is no current component add nothing:
      rows before the first header are dropped. */
  lemma {:induction false} NoHeaderNoOutput(rows: seq<Row>)
    requires forall k :: 0 <= k < |rows| ==> !rows[k].Header?
    ensures Walk(rows, []) == []
    ensures ComponentAfter(rows, []) == []
  {
    if rows != [] {
      NoHeaderNoOutput(rows[1..]);
    }
  }

  /** The catalog of a table whose first rows hold no header is the
      catalog of the rest: those leading rows are dropped. */
  lemma LeadingRowsDropped(pre: seq<Row>, post: seq<Row>)
    requires forall k :: 0 <= k < |pre| ==> !pre[k].Header?
    ensures Extract(pre + post) == Extract(post)
  {
    WalkAppend(pre, post, []);
    NoHeaderNoOutput(pre);
  }

  /** Each row contributes on its own: in the catalog of `pre + [row] +
      post`, the row's offerings are exactly `RowOutput` under the
      component the rows before it leave, between the offerings of the rows
      around it. */
  lemma RowInContext(pre: seq<Row>, row: Row, post: seq<Row>)
    ensures var cur := ComponentAfter(pre, []);
            Extract(pre + [row] + post)
            == Extract(pre) + RowOutput(cur, row) + Walk(post, NextComponent(cur, row))
  {
    var cur := ComponentAfter(pre, []);
    var rest := [row] + post;
    RowSplit(pre, row, post);
    WalkAppend(pre, rest, []);
    WalkCons(rest, cur);
  }

  lemma RowSplit(pre: seq<Row>, row: Row, post: seq<Row>)
    ensures pre + [row] + post == pre + ([row] + post)
    ensures ([row] + post)[0] == row && ([row] + post)[1..] == post
  {
  }

  lemma WalkCons(rows: seq<Row>, cur: Name)
    requires rows != []
    ensures Walk(rows, cur) == RowOutput(cur, rows[0]) + Walk(rows[1..], NextComponent(cur, rows[0]))
  {
  }

  lemma {:induction false} FinalAppend<S, X>(next: (S, X) -> S, a: seq<X>, b: seq<X>, st: S)
    ensures Final(next, a + b, st) == Final(next, b, Final(next, a, st))
  {
    if a == [] {
      assert a + b == b;
    } else {
      assert (a + b)[0] == a[0];
      assert (a + b)[1..] == a[1..] + b;
      FinalAppend(next, a[1..], b, next(st, a[0]));
    }
  }

  /** Rows other than headers never change the current component. */
  lemma {:induction false} NoHeaderKeeps(rows: seq<Row>, cur: Name)
    requires forall k :: 0 <= k < |rows| ==> !rows[k].Header?
    ensures ComponentAfter(rows, cur) == cur
  {
    if rows != [] {
      assert !rows[0].Header?;
      assert forall k :: 0 <= k < |rows| - 1 ==> rows[1..][k] == rows[k + 1];
      NoHeaderKeeps(rows[1..], cur);
    }
  }

  lemma HeaderStep(t: string, cur: Name)
    ensures ComponentAfter([Header(t)], cur) == ComponentName(t)
  {
    var rows := [Header(t)];
    assert rows[0] == Header(t) && rows[1..] == [];
    assert NextComponent(cur, Header(t)) == ComponentName(t);
    assert Final(NextComponent, rows, cur) == Final(NextComponent, [], NextComponent(cur, Header(t)));
  }

  /** The current component is the name of the last header met: after a
      header and any run of rows without one, it is that header's name,
      whatever came before. */
  lemma LastHeaderCurrent(pre: seq<Row>, t: string, mid: seq<Row>, cur: Name)
    requires forall k :: 0 <= k < |mid| ==> !mid[k].Header?
    ensures ComponentAfter(pre + [Header(t)] + mid, cur) == ComponentName(t)
  {
    FinalAppend(NextComponent, pre + [Header(t)], mid, cur);
    FinalAppend(NextComponent, pre, [Header(t)], cur);
    HeaderStep(t, ComponentAfter(pre, cur));
    NoHeaderKeeps(mid, ComponentName(t));
  }

  /** The offerings of a section row carry the name of the last header
      above it: in the catalog of `pre + [Header(t)] + mid + [row] + post`,
      with no header in `mid`, the row adds `RowOutput` under
      `ComponentName(t)`, and each of those offerings names that component. */
  lemma OfferingComponent(pre: seq<Row>, t: string, mid: seq<Row>, row: Row, post: seq<Row>)
    requires forall k :: 0 <= k < |mid| ==> !mid[k].Header?
    ensures var above := pre + [Header(t)] + mid;
            var out := RowOutput(ComponentName(t), row);
            && Extract(above + [row] + post)
               == Extract(above) + out + Walk(post, NextComponent(ComponentName(t), row))
            && forall k :: 0 <= k < |out| ==> out[k].componente == ComponentName(t)
  {
    var above := pre + [Header(t)] + mid;
    LastHeaderCurrent(pre, t, mid, []);
    RowInContext(above, row, post);
  }

  /** A header made of a name, the suffix and a tail, where the suffix
      first occurs right after the name and not at all in the tail,
      announces the stripped name and tail with the suffix removed. */
  lemma HeaderSuffixRemoved(name: string, tail: string)
    requires forall i :: 0 <= i < |name| ==> !OccursAt(name + Graduacao + tail, Graduacao, i)
    requires forall i :: 0 <= i < |tail| ==> !OccursAt(tail, Graduacao, i)
    ensures ComponentName(name + Graduacao + tail) == Strip(name + tail)
  {
    RemoveAllAfterPrefix(name, Graduacao, tail);
    RemoveAllAbsent(tail, Graduacao);
  }

  /** A '(' inside the name does not stop the removal: the header
      `FÍSICA (TEÓRICA) (GRADUAÇÃO)` announces `FÍSICA (TEÓRICA)`. */
  lemma ParenthesisInName()
    ensures ComponentName("FÍSICA (TEÓRICA) (GRADUAÇÃO)") == "FÍSICA (TEÓRICA)"
  {
    var name := "FÍSICA (TEÓRICA) ";
    var s := name + Graduacao + [];
    assert s == "FÍSICA (TEÓRICA) (GRADUAÇÃO)";
    forall i | 0 <= i < |name|
      ensures !OccursAt(s, Graduacao, i)
    {
      if i == 7 {
        assert s[i + 1] != Graduacao[1];
      } else {
        assert s[i] != Graduacao[0];
      }
    }
    HeaderSuffixRemoved(name, []);
    assert name + [] == name;
    StripExample();
  }

  lemma StripExample()
    ensures Strip("FÍSICA (TEÓRICA) ") == "FÍSICA (TEÓRICA)"
  {
    var s := "FÍSICA (TEÓRICA) ";
    assert Lead(s) == 0;
    assert s[..|s| - 1] == "FÍSICA (TEÓRICA)";
    assert Trail(s[..|s| - 1]) == 0;
    assert Trail(s) == 1;
  }
}

=== FILE: colour.dfy ===
/** The component colour of `gerar_cor_por_string`: the first three bytes
    of the MD5 digest of the component name, each mapped into the light half
    of the channel range, written as `#RRGGBB` in upper-case hex. */
module Colour {

  type byte = x: int | 0 <= x < 256

  const HexDigits: string := "0123456789ABCDEF"

  /** One colour channel from one digest byte: `(b % 128) + 127`. */
  function Channel(b: byte): (c: int)
    ensures 127 <= c <= 254
    ensures c - 127 == b % 128
  {
    (b % 128) + 127
  }

  predicate IsHexDigit(c: char) {
    ('0' <= c <= '9') || ('A' <= c <= 'F')
  }

  /** `'%02X' % v` for a value that fits in two hex digits. */
  function Hex2(v: int): (r: string)
    requires 0 <= v < 256
    ensures |r| == 2 && IsHexDigit(r[0]) && IsHexDigit(r[1])
  {
    [HexDigits[v / 16], HexDigits[v % 16]]
  }

  /** The value of an upper-case hex digit. */
  function HexValue(c: char): (v: int)
    requires IsHexDigit(c)
    ensures 0 <= v < 16
  {
    if '0' <= c <= '9' then (c as int) - ('0' as int) else (c as int) - ('A' as int) + 10
  }

  /** The colour string for the digest's first three bytes. */
  function ColourOf(b0: byte, b1: byte, b2: byte): (r: string)
    ensures |r| == 7 && r[0] == '#'
    ensures forall i :: 1 <= i < 7 ==> IsHexDigit(r[i])
  {
    "#" + Hex2(Channel(b0)) + Hex2(Channel(b1)) + Hex2(Channel(b2))
  }

  /** Reading two hex digits back gives the value written. */
  lemma Hex2RoundTrip(v: int)
    requires 0 <= v < 256
    ensures HexValue(Hex2(v)[0]) * 16 + HexValue(Hex2(v)[1]) == v
  {
    var hi := v / 16;
    var lo := v % 16;
    HexDigitRoundTrip(hi);
    HexDigitRoundTrip(lo);
  }

  lemma HexDigitRoundTrip(d: int)
    requires 0 <= d < 16
    ensures IsHexDigit(HexDigits[d]) && HexValue(HexDigits[d]) == d
  {
  }

  /** The colour string encodes the three channels: its pairs of hex
      digits read back as the channels of the three bytes, each between 127
      and 254. */
  lemma ColourChannels(b0: byte, b1: byte, b2: byte)
    ensures var r := ColourOf(b0, b1, b2);
            && HexValue(r[1]) * 16 + HexValue(r[2]) == Channel(b0)
            && HexValue(r[3]) * 16 + HexValue(r[4]) == Channel(b1)
            && HexValue(r[5]) * 16 + HexValue(r[6]) == Channel(b2)
  {
    var h0, h1, h2 := Hex2(Channel(b0)), Hex2(Channel(b1)), Hex2(Channel(b2));
    var r := ColourOf(b0, b1, b2);
    assert r == "#" + h0 + h1 + h2;
    Hex2RoundTrip(Channel(b0));
    Hex2RoundTrip(Channel(b1));
    Hex2RoundTrip(Channel(b2));
    assert r[1] == h0[0] && r[2] == h0[1];
    assert r[3] == h1[0] && r[4] == h1[1];
    assert r[5] == h2[0] && r[6] == h2[1];
  }

  /** The channel range tops out at 254: byte 127 (or 255) reaches it and
      no byte gives 255. */
  lemma ChannelMaximum(b: byte)
    ensures Channel(b) != 255
    ensures Channel(127) == 254 && Channel(255) == 254
  {
  }
}

=== FILE: conflict.dfy ===
/** The advisory conflict check `verificar_problemas`: before a section is
    added, report the first of its blocks that is already taken and whether
    the component is already enrolled. The enrollment list is an argument
    and is only read. */
module Conflict {
  import opened Wrappers
  import opened Enrollments

  /** The two warnings. A time clash names the block's day index and hour;
      the message text around them is not modelled. */
  datatype Alert = TimeClash(day: int, hour: int) | AlreadyAdded(componente: string)

  /** The position of the first candidate block that is already taken, or
      the number of candidates when none is. */
  function ClashIndex(cands: seq<Block>, occ: set<Block>): (i: nat)
    ensures i <= |cands|
    ensures forall j :: 0 <= j < i ==> cands[j] !in occ
    ensures i < |cands| ==> cands[i] in occ
  {
    if cands == [] || cands[0] in occ then 0
    else
      var i := ClashIndex(cands[1..], occ);
      assert forall j :: 1 <= j < i + 1 ==> cands[j] == cands[1..][j - 1];
      i + 1
  }

  /** The first candidate block, in list order, that is already taken. */
  function FirstClash(cands: seq<Block>, occ: set<Block>): (r: Option<Block>)
    ensures r.None? <==> forall k :: 0 <= k < |cands| ==> cands[k] !in occ
    ensures r.Some? ==>
              exists k :: 0 <= k < |cands| && cands[k] == r.value && r.value in occ
                          && forall j :: 0 <= j < k ==> cands[j] !in occ
  {
    var i := ClashIndex(cands, occ);
    if i < |cands| then Some(cands[i]) else None
  }

  /** Some enrollment is for component `nome`. */
  predicate HasComponent(m: seq<Enrollment>, nome: string) {
    exists k :: 0 <= k < |m| && m[k].componente == nome
  }

  /** Some candidate block is already taken. */
  predicate Overlaps(cands: seq<Block>, m: seq<Enrollment>) {
    exists k :: 0 <= k < |cands| && cands[k] in Occupied(m)
  }

  /** `verificar_problemas`: at most one time clash, which comes first and
      names the first taken candidate block, and at most one duplicate
      warning, which comes last; no warning at all exactly when nothing
      overlaps and the component is new. */
  function Check(cands: seq<Block>, nome: string, m: seq<Enrollment>): (r: seq<Alert>)
    ensures |r| <= 2
    ensures Overlaps(cands, m) <==> (r != [] && r[0].TimeClash?)
    ensures r != [] && r[0].TimeClash? ==>
              exists k :: 0 <= k < |cands| && cands[k] == Block(r[0].day, r[0].hour)
                          && cands[k] in Occupied(m)
                          && forall j :: 0 <= j < k ==> cands[j] !in Occupied(m)
    ensures HasComponent(m, nome) <==> (r != [] && r[|r| - 1] == AlreadyAdded(nome))
    ensures |r| == 2 ==> r[0].TimeClash? && r[1].AlreadyAdded?
    ensures forall k :: 0 <= k < |r| && r[k].AlreadyAdded? ==> r[k] == AlreadyAdded(nome)
    ensures r == [] <==> !Overlaps(cands, m) && !HasComponent(m, nome)
  {
    var clash := match FirstClash(cands, Occupied(m))
      case Some(b) => [TimeClash(b.day, b.hour)]
      case None => [];
    var dup := if HasComponent(m, nome) then [AlreadyAdded(nome)] else [];
    clash + dup
  }

  /** Checking a section against the list it was just added to reports
      both warnings: its first block clashes with itself and its component
      is already there. */
  lemma CheckAfterAdd(m: seq<Enrollment>, nome: string, turma: string, docente: string,
                      blocos: seq<Block>, b0: Colour.byte, b1: Colour.byte, b2: Colour.byte, n: int)
    requires 1000 <= n <= 9999
    ensures var m' := Add(m, nome, turma, docente, blocos, b0, b1, b2, n);
            Check(blocos, nome, m')
            == (if blocos == [] then [] else [TimeClash(blocos[0].day, blocos[0].hour)]) + [AlreadyAdded(nome)]
  {
    var m' := Add(m, nome, turma, docente, blocos, b0, b1, b2, n);
    assert m'[|m|].componente == nome;
    assert HasComponent(m', nome);
    if blocos != [] {
      assert blocos[0] in m'[|m|].blocos;
      assert blocos[0] in Occupied(m');
    }
  }
}

=== FILE: decoder.dfy ===
/** The SIGAA schedule-code decoder (`parse_sigaa_horario`). A code such as
    "35M23" or "24T12 6M34" is a whitespace-separated list of fragments;
    each fragment starts with one or more day digits 2-7, one shift letter
    M/T/N and one or more slot digits 1-6. Each (day digit, slot digit)
    pair that the tables know becomes a one-hour record. */
module Decoder {
  import opened Wrappers
  import opened Text
  import opened Tables
  import opened Sorting

  /** One decoded hour: the day's name, the start hour and the end hour. */
  datatype Record = Record(dia: string, inicio: int, fim: int)

  /** The three groups the fragment grammar captures. */
  datatype Code = Code(days: string, shift: char, slots: string)

  predicate IsDayDigit(c: char) { '2' <= c <= '7' }
  predicate IsShift(c: char) { c == 'M' || c == 'T' || c == 'N' }
  predicate IsSlotDigit(c: char) { '1' <= c <= '6' }

  /** A record the decoder can produce: a one-hour block on a weekday
      (Monday to Saturday, never Sunday) starting between 7:00 and 22:00. */
  predicate ValidRecord(r: Record) {
    && r.fim == r.inicio + 1
    && 7 <= r.inicio <= 22
    && r.dia in DiasSemana[1..]
  }

  predicate AllValid(rs: seq<Record>) {
    forall k :: 0 <= k < |rs| ==> ValidRecord(rs[k])
  }

  /** The length of the longest prefix of day digits. */
  function DayRun(s: string): (n: nat)
    ensures n <= |s|
    ensures forall i :: 0 <= i < n ==> IsDayDigit(s[i])
    ensures n < |s| ==> !IsDayDigit(s[n])
  {
    if s == [] || !IsDayDigit(s[0]) then 0 else 1 + DayRun(s[1..])
  }

  /** The length of the longest prefix of slot digits. */
  function SlotRun(s: string): (n: nat)
    ensures n <= |s|
    ensures forall i :: 0 <= i < n ==> IsSlotDigit(s[i])
    ensures n < |s| ==> !IsSlotDigit(s[n])
  {
    if s == [] || !IsSlotDigit(s[0]) then 0 else 1 + SlotRun(s[1..])
  }

  /** The text a code was matched from. */
  function CodeText(c: Code): string {
    c.days + [c.shift] + c.slots
  }

  predicate WellFormed(c: Code) {
    && c.days != [] && (forall i :: 0 <= i < |c.days| ==> IsDayDigit(c.days[i]))
    && IsShift(c.shift)
    && c.slots != [] && (forall i :: 0 <= i < |c.slots| ==> IsSlotDigit(c.slots[i]))
  }

  /** `re.match(r"([2-7]+)([MTN])([1-6]+)", f)`: the three character classes
      are disjoint, so the greedy match is found by one scan: the longest
      run of day digits, one shift letter, the longest run of slot digits.
      Whatever follows is not looked at. */
  function Match(f: string): (r: Option<Code>)
    ensures r.Some? ==> WellFormed(r.value)
    ensures r.Some? ==> |CodeText(r.value)| <= |f| && f[..|CodeText(r.value)|] == CodeText(r.value)
  {
    var d := DayRun(f);
    if d == 0 || d == |f| || !IsShift(f[d]) then None
    else
      var k := SlotRun(f[d + 1..]);
      if k == 0 then None
      else
        var c := Code(f[..d], f[d], f[d + 1..d + 1 + k]);
        assert f[..|CodeText(c)|] == CodeText(c);
        Some(c)
  }

  /** The regular expression accepts a prefix of `f` with `i` day digits
      and `k` slot digits. */
  ghost predicate MatchesAt(f: string, i: nat, k: nat) {
    && 0 < i && 0 < k && i + 1 + k <= |f|
    && (forall j :: 0 <= j < i ==> IsDayDigit(f[j]))
    && IsShift(f[i])
    && (forall j :: i < j < i + 1 + k ==> IsSlotDigit(f[j]))
  }

  /** The scanner is the regular expression: it succeeds exactly when some
      prefix of the fragment fits the grammar, and its groups are the ones
      Python's greedy matcher captures (the longest day run and the longest
      slot run that follow). */
  lemma MatchIsRegex(f: string)
    ensures Match(f).Some? <==> exists i: nat, k: nat :: MatchesAt(f, i, k)
    ensures Match(f).Some? ==> MatchesAt(f, |Match(f).value.days|, |Match(f).value.slots|)
    ensures Match(f).Some? ==>
              forall i: nat, k: nat :: MatchesAt(f, i, k) ==>
                i == |Match(f).value.days| && k <= |Match(f).value.slots|
    ensures Match(f).Some? ==>
              var n := |CodeText(Match(f).value)|;
              n == |f| || !IsSlotDigit(f[n])
  {
    var d := DayRun(f);
    if exists i: nat, k: nat :: MatchesAt(f, i, k) {
      var i: nat, k: nat :| MatchesAt(f, i, k);
      DayRunOfMatch(f, i, k);
      assert d == i;
      var t := f[d + 1..];
      assert t[0] == f[d + 1];
      assert SlotRun(t) >= k by {
        SlotRunAtLeast(t, k);
      }
    }
    if Match(f).Some? {
      var c := Match(f).value;
      var k := SlotRun(f[d + 1..]);
      assert |c.days| == d && |c.slots| == k;
      assert MatchesAt(f, d, k) by {
        forall j | d < j < d + 1 + k
          ensures IsSlotDigit(f[j])
        {
          assert f[j] == f[d + 1..][j - d - 1];
        }
      }
      forall i: nat, k': nat | MatchesAt(f, i, k')
        ensures i == d && k' <= k
      {
        DayRunOfMatch(f, i, k');
        SlotRunAtLeast(f[d + 1..], k');
      }
      if d + 1 + k < |f| {
        assert f[d + 1 + k] == f[d + 1..][k];
      }
    }
  }

  lemma DayRunOfMatch(f: string, i: nat, k: nat)
    requires MatchesAt(f, i, k)
    ensures DayRun(f) == i
  {
    var d := DayRun(f);
    assert !IsDayDigit(f[i]);
    assert d <= i;
    assert d < |f| && !IsDayDigit(f[d]);
  }

  lemma SlotRunAtLeast(t: string, k: nat)
    requires k <= |t|
    requires forall j :: 0 <= j < k ==> IsSlotDigit(t[j])
    ensures SlotRun(t) >= k
  {
    var n := SlotRun(t);
  }

  /** Text after the captured groups is ignored: a well-formed code followed
      by anything that does not continue its slot run matches as the code
      itself. */
  lemma {:induction false} TrailingTextIgnored(c: Code, t: string)
    requires WellFormed(c)
    requires t == [] || !IsSlotDigit(t[0])
    ensures Match(CodeText(c) + t) == Some(c)
  {
    var f := CodeText(c) + t;
    var d := |c.days|;
    var k := |c.slots|;
    assert f[d] == c.shift;
    assert MatchesAt(f, d, k) by {
      forall j | 0 <= j < d
        ensures IsDayDigit(f[j])
      {
        assert f[j] == c.days[j];
      }
      forall j | d < j < d + 1 + k
        ensures IsSlotDigit(f[j])
      {
        assert f[j] == c.slots[j - d - 1];
      }
    }
    MatchIsRegex(f);
    var m := Match(f).value;
    assert |m.days| == d;
    assert k <= |m.slots|;
    var n := |CodeText(m)|;
    assert t != [] ==> f[d + 1 + k] == t[0];
    assert t == [] ==> |f| == d + 1 + k;
    assert |m.slots| == k;
    assert CodeText(m) == f[..n] == CodeText(c);
    assert m.days == CodeText(m)[..d] == CodeText(c)[..d] == c.days;
    assert m.slots == CodeText(m)[d + 1..] == CodeText(c)[d + 1..] == c.slots;
  }

  // ---------------------------------------------------------------------
  // Expansion of one matched fragment

  /** The hours of the slot digits in `slots` that the shift's table lists,
      in digit order; a digit the table lacks (M6, N5, N6) is dropped on its
      own. */
  function Hours(shift: char, slots: string): (r: seq<int>)
    ensures |r| <= |slots|
    ensures forall k :: 0 <= k < |r| ==> 7 <= r[k] <= 22
    ensures (forall j :: 0 <= j < |slots| ==> SlotHour(shift, slots[j]).Some?) ==> |r| == |slots|
  {
    if slots == [] then []
    else
      (match SlotHour(shift, slots[0]) case Some(h) => [h] case None => [])
      + Hours(shift, slots[1..])
  }

  /** Dropping is per digit: the digits on each side of one the table lacks
      decode as if it were not there. */
  lemma {:induction false} HoursAppend(shift: char, a: string, b: string)
    ensures Hours(shift, a + b) == Hours(shift, a) + Hours(shift, b)
  {
    if a != [] {
      assert (a + b)[0] == a[0];
      assert (a + b)[1..] == a[1..] + b;
      HoursAppend(shift, a[1..], b);
    } else {
      assert a + b == b;
    }
  }

  lemma HoursSkipUnmapped(shift: char, a: string, c: char, b: string)
    requires SlotHour(shift, c).None?
    ensures Hours(shift, a + [c] + b) == Hours(shift, a + b)
  {
    HoursAppend(shift, a + [c], b);
    HoursAppend(shift, a, [c]);
    HoursAppend(shift, a, b);
  }

  /** One slot digit gives the hour its shift's table lists for it, or no
      hour when the table lacks it. */
  lemma HoursOfDigit(shift: char, c: char)
    ensures Hours(shift, [c]) == match SlotHour(shift, c) case Some(h) => [h] case None => []
  {
    assert [c][1..] == [];
  }

  /** The hours of a run of slot digits are exactly the table's hours for
      its digits: every hour comes from some digit of the run, and every
      digit the table lists contributes its hour. */
  lemma {:induction false} HoursFromTable(shift: char, slots: string)
    ensures forall h :: h in Hours(shift, slots)
                        <==> exists j :: 0 <= j < |slots| && SlotHour(shift, slots[j]) == Some(h)
  {
    if slots != [] {
      var head := match SlotHour(shift, slots[0]) case Some(h) => [h] case None => [];
      var rest := Hours(shift, slots[1..]);
      HoursFromTable(shift, slots[1..]);
      assert Hours(shift, slots) == head + rest;
      forall h ensures h in head + rest
                       <==> exists j :: 0 <= j < |slots| && SlotHour(shift, slots[j]) == Some(h)
      {
        if h in head + rest {
          if h in head {
            assert SlotHour(shift, slots[0]) == Some(h);
          } else {
            var j :| 0 <= j < |slots[1..]| && SlotHour(shift, slots[1..][j]) == Some(h);
            assert slots[j + 1] == slots[1..][j];
          }
        }
        if exists j :: 0 <= j < |slots| && SlotHour(shift, slots[j]) == Some(h) {
          var j :| 0 <= j < |slots| && SlotHour(shift, slots[j]) == Some(h);
          if j == 0 {
            assert h in head;
          } else {
            assert slots[1..][j - 1] == slots[j];
            assert h in rest;
          }
        }
      }
    }
  }

  /** The name of the day a day digit stands for. */
  function DayName(c: char): string
    requires IsDayDigit(c)
  {
    DiasSemana[DayIndex(c).value]
  }

  function DayRecords(name: string, hs: seq<int>): (r: seq<Record>)
    ensures |r| == |hs|
    ensures forall k :: 0 <= k < |r| ==> r[k] == Record(name, hs[k], hs[k] + 1)
  {
    seq(|hs|, k requires 0 <= k < |hs| => Record(name, hs[k], hs[k] + 1))
  }

  /** One day's hours for every day digit, in the digits' order; a digit
      the day table lacks is skipped. */
  function ExpandDays(days: string, hs: seq<int>): seq<Record> {
    if days == [] then []
    else
      var first := match DayIndex(days[0])
        case None => []
        case Some(i) => DayRecords(DiasSemana[i], hs);
      first + ExpandDays(days[1..], hs)
  }

  lemma AllValidAppend(a: seq<Record>, b: seq<Record>)
    requires AllValid(a) && AllValid(b)
    ensures AllValid(a + b)
  {
    forall k | 0 <= k < |a + b| ensures ValidRecord((a + b)[k]) {
      if k < |a| {
        assert (a + b)[k] == a[k];
      } else {
        assert (a + b)[k] == b[k - |a|];
      }
    }
  }

  /** Every expanded record is a valid one-hour block. */
  lemma {:induction false} ExpandDaysValid(days: string, hs: seq<int>)
    requires forall k :: 0 <= k < |hs| ==> 7 <= hs[k] <= 22
    ensures AllValid(ExpandDays(days, hs))
  {
    if days != [] {
      ExpandDaysValid(days[1..], hs);
      match DayIndex(days[0])
      case None =>
        assert ExpandDays(days, hs) == [] + ExpandDays(days[1..], hs);
      case Some(i) =>
        var first := DayRecords(DiasSemana[i], hs);
        assert DiasSemana[i] in DiasSemana[1..] by {
          assert DiasSemana[i] == DiasSemana[1..][i - 1];
        }
        assert AllValid(first);
        AllValidAppend(first, ExpandDays(days[1..], hs));
    }
  }

  /** The hours of a code's slot digits, ascending (`horas_reais.sort()`). */
  function SortedHours(c: Code): (hs: seq<int>)
    ensures Sorted(hs)
    ensures multiset(hs) == multiset(Hours(c.shift, c.slots))
    ensures forall k :: 0 <= k < |hs| ==> 7 <= hs[k] <= 22
  {
    var hs := Sort(Hours(c.shift, c.slots));
    assert forall k :: 0 <= k < |hs| ==> 7 <= hs[k] <= 22 by {
      forall k | 0 <= k < |hs|
        ensures 7 <= hs[k] <= 22
      {
        assert hs[k] in multiset(Hours(c.shift, c.slots));
      }
    }
    hs
  }

  /** The records of a matched fragment: the shift's hours sorted ascending
      and repeated for each day digit. */
  function Expand(c: Code): seq<Record> {
    ExpandDays(c.days, SortedHours(c))
  }

  /** The records one fragment contributes: none unless it matches. */
  function DecodeFragment(f: string): (r: seq<Record>)
    ensures Match(f).None? ==> r == []
  {
    match Match(f)
    case None => []
    case Some(c) => Expand(c)
  }

  /** Every record of a fragment is a valid one-hour block. */
  lemma DecodeFragmentValid(f: string)
    ensures AllValid(DecodeFragment(f))
  {
    if Match(f).Some? {
      var c := Match(f).value;
      ExpandDaysValid(c.days, SortedHours(c));
    }
  }

  /** The records `f` gives each of `xs`, one after the other. */
  function ConcatMap(f: string -> seq<Record>, xs: seq<string>): seq<Record> {
    if xs == [] then [] else f(xs[0]) + ConcatMap(f, xs[1..])
  }

  lemma {:induction false} ConcatMapAppend(f: string -> seq<Record>, a: seq<string>, b: seq<string>)
    ensures ConcatMap(f, a + b) == ConcatMap(f, a) + ConcatMap(f, b)
  {
    if a == [] {
      assert a + b == b;
    } else {
      assert (a + b)[0] == a[0];
      assert (a + b)[1..] == a[1..] + b;
      ConcatMapAppend(f, a[1..], b);
    }
  }

  /** The fragments' records, one fragment after the other. */
  function DecodeAll(fs: seq<string>): seq<Record> {
    ConcatMap(DecodeFragment, fs)
  }

  lemma {:induction false} ConcatMapValid(fs: seq<string>)
    ensures AllValid(ConcatMap(DecodeFragment, fs))
  {
    if fs != [] {
      ConcatMapValid(fs[1..]);
      DecodeFragmentValid(fs[0]);
      AllValidAppend(DecodeFragment(fs[0]), ConcatMap(DecodeFragment, fs[1..]));
    }
  }

  /** `parse_sigaa_horario` on a string. */
  function Decode(s: string): (r: seq<Record>)
    ensures AllValid(r)
    ensures AllSpace(s) ==> r == []
  {
    if Strip(s) == [] then []
    else
      StripBlank(s);
      ConcatMapValid(Split(s));
      DecodeAll(Split(s))
  }

  /** `parse_sigaa_horario` on any value: `None` stands for a value that is
      not a string, which decodes to nothing. */
  function ParseHorario(v: Option<string>): (r: seq<Record>)
    ensures v.None? ==> r == []
    ensures v.Some? && AllSpace(v.value) ==> r == []
    ensures AllValid(r)
  {
    match v
    case None => []
    case Some(s) => Decode(s)
  }

  // ---------------------------------------------------------------------
  // Properties of the decoder

  lemma DecodeAllAppend(a: seq<string>, b: seq<string>)
    ensures DecodeAll(a + b) == DecodeAll(a) + DecodeAll(b)
  {
    ConcatMapAppend(DecodeFragment, a, b);
  }

  /** The early return for blank input changes nothing: the result is
      always the fragments' records concatenated in input order. */
  lemma DecodeIsFragments(s: string)
    ensures Decode(s) == DecodeAll(Split(s))
  {
    StripBlank(s);
    SplitBlank(s);
  }

  /** Fragments decode independently: the records of `a c b`, with `c` a
      whitespace character, are those of `a` followed by those of `b`. */
  lemma DecodeAcrossSpace(a: string, c: char, b: string)
    requires IsSpace(c)
    ensures Decode(a + [c] + b) == Decode(a) + Decode(b)
  {
    DecodeIsFragments(a + [c] + b);
    DecodeIsFragments(a);
    DecodeIsFragments(b);
    SplitAcrossSpace(a, c, b);
    DecodeAllAppend(Split(a), Split(b));
  }

  /** A single fragment decodes as the fragment. */
  lemma DecodeWord(w: string)
    requires IsWord(w)
    ensures Decode(w) == DecodeFragment(w)
  {
    DecodeIsFragments(w);
    SplitWord(w);
    assert ConcatMap(DecodeFragment, [w]) == DecodeFragment(w) + ConcatMap(DecodeFragment, []);
  }

  /** A fragment that does not start with the grammar contributes nothing,
      and does not stop the fragments around it from decoding. */
  lemma BadFragmentSkipped(a: string, c1: char, w: string, c2: char, b: string)
    requires IsSpace(c1) && IsSpace(c2)
    requires IsWord(w) && Match(w).None?
    ensures Decode(a + [c1] + w + [c2] + b) == Decode(a) + Decode(b)
  {
    var rest := w + [c2] + b;
    Regroup(a, c1, w, c2, b);
    BadFragmentFirst(w, c2, b);
    assert Decode(rest) == Decode(b);
    DecodeAcrossSpace(a, c1, rest);
  }

  lemma Regroup(a: string, c1: char, w: string, c2: char, b: string)
    ensures a + [c1] + w + [c2] + b == a + [c1] + (w + [c2] + b)
  {
  }

  lemma BadFragmentFirst(w: string, c: char, b: string)
    requires IsSpace(c)
    requires IsWord(w) && Match(w).None?
    ensures Decode(w + [c] + b) == Decode(b)
  {
    DecodeAcrossSpace(w, c, b);
    DecodeWord(w);
  }

  /** A matched fragment decodes exactly as the text its groups cover. */
  lemma DecodeMatchedPrefix(f: string)
    requires Match(f).Some?
    ensures Match(CodeText(Match(f).value)) == Match(f)
    ensures DecodeFragment(f) == DecodeFragment(CodeText(Match(f).value))
  {
    var c := Match(f).value;
    TrailingTextIgnored(c, []);
    assert CodeText(c) + [] == CodeText(c);
  }

  lemma {:induction false} ExpandDaysLength(days: string, hs: seq<int>)
    requires forall i :: 0 <= i < |days| ==> IsDayDigit(days[i])
    ensures |ExpandDays(days, hs)| == Offset(|days|, |hs|)
  {
    if days != [] {
      assert IsDayDigit(days[0]);
      assert forall i :: 0 <= i < |days| - 1 ==> IsDayDigit(days[1..][i]) by {
        assert forall i :: 0 <= i < |days| - 1 ==> days[1..][i] == days[i + 1];
      }
      ExpandDaysLength(days[1..], hs);
      assert |DayRecords(DayName(days[0]), hs)| == |hs|;
      assert |days[1..]| == |days| - 1;
    }
  }

  /** Where the records of day digit `i` begin when each day has `m`
      records: `i` blocks of `m`. */
  function Offset(i: nat, m: nat): nat {
    if i == 0 then 0 else Offset(i - 1, m) + m
  }

  lemma {:induction false} OffsetIsProduct(i: nat, m: nat)
    ensures Offset(i, m) == i * m
  {
    if i > 0 {
      OffsetIsProduct(i - 1, m);
      assert i * m == (i - 1) * m + m;
    }
  }

  /** The first day digit's records come first ... */
  lemma ExpandDaysHead(days: string, hs: seq<int>, j: nat)
    requires days != [] && IsDayDigit(days[0]) && j < |hs|
    ensures j < |ExpandDays(days, hs)|
    ensures ExpandDays(days, hs)[j] == Record(DayName(days[0]), hs[j], hs[j] + 1)
  {
    var first := DayRecords(DayName(days[0]), hs);
    assert ExpandDays(days, hs) == first + ExpandDays(days[1..], hs);
    assert (first + ExpandDays(days[1..], hs))[j] == first[j];
  }

  /** ... and the other digits' records follow them. */
  lemma ExpandDaysShift(days: string, hs: seq<int>, n: nat)
    requires days != [] && IsDayDigit(days[0]) && n < |ExpandDays(days[1..], hs)|
    ensures |hs| + n < |ExpandDays(days, hs)|
    ensures ExpandDays(days, hs)[|hs| + n] == ExpandDays(days[1..], hs)[n]
  {
    var first := DayRecords(DayName(days[0]), hs);
    var rest := ExpandDays(days[1..], hs);
    assert ExpandDays(days, hs) == first + rest;
    assert (first + rest)[|first| + n] == rest[n];
  }

  lemma {:induction false} ExpandDaysAt(days: string, hs: seq<int>, i: nat, j: nat)
    requires forall i :: 0 <= i < |days| ==> IsDayDigit(days[i])
    requires i < |days| && j < |hs|
    ensures Offset(i, |hs|) + j < |ExpandDays(days, hs)|
    ensures ExpandDays(days, hs)[Offset(i, |hs|) + j] == Record(DayName(days[i]), hs[j], hs[j] + 1)
  {
    if i == 0 {
      ExpandDaysHead(days, hs, j);
    } else {
      var tail := days[1..];
      assert tail[i - 1] == days[i];
      assert forall k :: 0 <= k < |tail| ==> IsDayDigit(tail[k]) by {
        assert forall k :: 0 <= k < |tail| ==> tail[k] == days[k + 1];
      }
      ExpandDaysAt(tail, hs, i - 1, j);
      var n := Offset(i - 1, |hs|) + j;
      ExpandDaysShift(days, hs, n);
      assert Offset(i, |hs|) + j == |hs| + n;
      assert DayName(tail[i - 1]) == DayName(days[i]);
    }
  }

  /** A matched fragment yields (day digits) x (slot digits the shift's
      table lists) records. */
  lemma FragmentCount(f: string)
    requires Match(f).Some?
    ensures var c := Match(f).value;
            |DecodeFragment(f)| == |c.days| * |Hours(c.shift, c.slots)|
  {
    var c := Match(f).value;
    var hs := SortedHours(c);
    assert |hs| == |Hours(c.shift, c.slots)| by {
      assert |multiset(hs)| == |multiset(Hours(c.shift, c.slots))|;
    }
    assert DecodeFragment(f) == ExpandDays(c.days, hs);
    ExpandDaysLength(c.days, hs);
    OffsetIsProduct(|c.days|, |hs|);
  }

  /** With m the number of hours of a code, record Offset(i, m) + j (that
      is, i*m + j) of its expansion is day digit i at the j-th hour of the
      ascending hour list: the days come out in digit order, each with all
      of the code's hours. */
  lemma ExpandLayout(c: Code, i: nat, j: nat)
    requires WellFormed(c)
    requires i < |c.days| && j < |SortedHours(c)|
    ensures Offset(i, |SortedHours(c)|) + j < |Expand(c)|
    ensures Expand(c)[Offset(i, |SortedHours(c)|) + j]
            == Record(DayName(c.days[i]), SortedHours(c)[j], SortedHours(c)[j] + 1)
  {
    var hs := SortedHours(c);
    ExpandDaysAt(c.days, hs, i, j);
    assert Expand(c) == ExpandDays(c.days, hs);
  }

  /** The sorted hours of a code are the table's hours for its slot
      digits, neither more nor fewer. */
  lemma SortedHoursFromTable(c: Code)
    ensures forall h :: h in SortedHours(c)
                        <==> exists k :: 0 <= k < |c.slots| && SlotHour(c.shift, c.slots[k]) == Some(h)
  {
    var hs := SortedHours(c);
    HoursFromTable(c.shift, c.slots);
    forall h ensures h in hs <==> h in Hours(c.shift, c.slots) {
      assert h in hs <==> h in multiset(hs);
      assert h in Hours(c.shift, c.slots) <==> h in multiset(Hours(c.shift, c.slots));
    }
  }

  /** Every record of a code carries a table hour: record `Offset(i, m) + j`
      is on the day of day digit `i` and starts at the hour the shift's
      table gives some slot digit of the code. */
  lemma RecordHourFromDigit(c: Code, i: nat, j: nat)
    requires WellFormed(c)
    requires i < |c.days| && j < |SortedHours(c)|
    ensures var n := Offset(i, |SortedHours(c)|) + j;
            && n < |Expand(c)|
            && Expand(c)[n].dia == DayName(c.days[i])
            && Expand(c)[n].fim == Expand(c)[n].inicio + 1
            && exists k :: 0 <= k < |c.slots| && SlotHour(c.shift, c.slots[k]) == Some(Expand(c)[n].inicio)
  {
    var hs := SortedHours(c);
    ExpandLayout(c, i, j);
    SortedHoursFromTable(c);
    assert hs[j] in hs;
  }

  /** Every slot digit the table lists is decoded on every day of the code:
      some record `Offset(i, m) + j` of day digit `i` is the one-hour block
      at that digit's hour. */
  lemma DigitHourDecoded(c: Code, i: nat, k: nat)
    requires WellFormed(c)
    requires i < |c.days| && k < |c.slots|
    requires SlotHour(c.shift, c.slots[k]).Some?
    ensures var h := SlotHour(c.shift, c.slots[k]).value;
            var hs := SortedHours(c);
            exists j :: 0 <= j < |hs| && hs[j] == h
                        && Offset(i, |hs|) + j < |Expand(c)|
                        && Expand(c)[Offset(i, |hs|) + j] == Record(DayName(c.days[i]), h, h + 1)
  {
    var hs := SortedHours(c);
    var h := SlotHour(c.shift, c.slots[k]).value;
    SortedHoursFromTable(c);
    assert h in hs;
    var j :| 0 <= j < |hs| && hs[j] == h;
    ExpandLayout(c, i, j);
  }

  /** Within one day of one code the hours come out in ascending order. */
  lemma ExpandHoursAscending(c: Code, i: nat, j1: nat, j2: nat)
    requires WellFormed(c)
    requires i < |c.days| && j1 <= j2 < |SortedHours(c)|
    ensures Offset(i, |SortedHours(c)|) + j2 < |Expand(c)|
    ensures Expand(c)[Offset(i, |SortedHours(c)|) + j1].inicio
            <= Expand(c)[Offset(i, |SortedHours(c)|) + j2].inicio
  {
    ExpandLayout(c, i, j1);
    ExpandLayout(c, i, j2);
  }

  /** A slot digit written twice is decoded twice: the output is a list and
      keeps the repeated record. */
  lemma RepeatedSlotKept()
    ensures DecodeFragment("2M11") == [Record("Segunda", 7, 8), Record("Segunda", 7, 8)]
  {
    var c := Code("2", 'M', "11");
    MatchOf2M11();
    HoursOf11();
    SortOf77();
    assert SortedHours(c) == [7, 7];
    ExpandOf2();
  }

  lemma SortOf77()
    ensures Sort([7, 7]) == [7, 7]
  {
    assert [7, 7][1..] == [7];
    assert Sort([7]) == [7] by { assert [7][1..] == []; }
  }

  lemma ExpandOf2()
    ensures ExpandDays("2", [7, 7]) == [Record("Segunda", 7, 8), Record("Segunda", 7, 8)]
  {
    assert "2"[1..] == [];
  }

  lemma MatchOf2M11()
    ensures Match("2M11") == Some(Code("2", 'M', "11"))
  {
    var f := "2M11";
    assert DayRun(f[1..]) == 0;
    assert DayRun(f) == 1;
    assert SlotRun(f[2..]) == 2 by {
      assert f[2..][1..] == "1";
      assert SlotRun("1") == 1 by { assert "1"[1..] == []; }
    }
    assert f[..1] == "2";
    assert f[2..4] == "11";
  }

  lemma HoursOf11()
    ensures Hours('M', "11") == [7, 7]
  {
    assert "11"[1..] == "1";
    assert Hours('M', "1") == [7] by { assert "1"[1..] == []; }
  }

  /** A fragment with an unknown day digit and shift letter is skipped. */
  lemma MalformedCodeSkipped()
    ensures Decode("9X99") == []
  {
    assert IsWord("9X99");
    DecodeWord("9X99");
    assert DayRun("9X99") == 0;
  }
}

=== FILE: enrollments.dfy ===
/** The enrollment list (`st.session_state['matricula']`) and its two
    operations, `adicionar_turma_a_grade` and `remover_matricula`, as pure
    functions from the old list to the new one. */
module Enrollments {
  import opened Colour

  /** One hour of a section: day index (0 is Sunday) and start hour. */
  datatype Block = Block(day: int, hour: int)

  datatype Enrollment = Enrollment(
    id: string,
    componente: string,
    turma: string,
    docente: string,
    blocos: seq<Block>,
    cor: string)

  /** The value of a decimal digit character. */
  function DigitValue(c: char): int {
    (c as int) - ('0' as int)
  }

  /** The character of a decimal digit. */
  function DigitChar(d: int): (c: char)
    requires 0 <= d < 10
    ensures '0' <= c <= '9' && DigitValue(c) == d
  {
    (('0' as int) + d) as char
  }

  /** The decimal text of a four-digit number, as `f"{n}"` writes it: four
      digits, the first not zero, that read back as `n`. */
  function FourDigits(n: int): (r: string)
    requires 1000 <= n <= 9999
    ensures |r| == 4 && forall i :: 0 <= i < 4 ==> '0' <= r[i] <= '9'
    ensures r[0] != '0'
    ensures DigitValue(r[0]) * 1000 + DigitValue(r[1]) * 100 + DigitValue(r[2]) * 10 + DigitValue(r[3]) == n
  {
    var q := n % 1000;
    var p := q % 100;
    var d0, d1, d2, d3 := n / 1000, q / 100, p / 10, p % 10;
    assert n == 1000 * d0 + q;
    assert q == 100 * d1 + p;
    assert p == 10 * d2 + d3;
    [DigitChar(d0), DigitChar(d1), DigitChar(d2), DigitChar(d3)]
  }

  /** The enrollment id `f"{nome}_{turma}_{n}"`, with `n` the random number
      drawn from 1000..9999: the name, '_', the section, '_' and the four
      digits of `n`. */
  function MakeId(nome: string, turma: string, n: int): (r: string)
    requires 1000 <= n <= 9999
    ensures |r| == |nome| + |turma| + 6
    ensures r[..|nome|] == nome && r[|nome|] == '_'
    ensures r[|nome| + 1..|nome| + 1 + |turma|] == turma && r[|nome| + 1 + |turma|] == '_'
    ensures r[|r| - 4..] == FourDigits(n)
  {
    nome + "_" + turma + "_" + FourDigits(n)
  }

  /** Ids drawn for the same section with different numbers differ: the
      number can be read back from the id's last four characters. */
  lemma MakeIdReadsBack(nome: string, turma: string, n: int)
    requires 1000 <= n <= 9999
    ensures var d := MakeId(nome, turma, n)[|nome| + |turma| + 2..];
            DigitValue(d[0]) * 1000 + DigitValue(d[1]) * 100 + DigitValue(d[2]) * 10 + DigitValue(d[3]) == n
  {
    var r := MakeId(nome, turma, n);
    assert r[|nome| + |turma| + 2..] == r[|r| - 4..];
  }

  lemma MakeIdDistinct(nome: string, turma: string, n1: int, n2: int)
    requires 1000 <= n1 <= 9999 && 1000 <= n2 <= 9999
    requires n1 != n2
    ensures MakeId(nome, turma, n1) != MakeId(nome, turma, n2)
  {
    MakeIdReadsBack(nome, turma, n1);
    MakeIdReadsBack(nome, turma, n2);
  }

  /** `adicionar_turma_a_grade`: appends one enrollment for the section,
      whatever it conflicts with. `n` is the random number of the id and
      `b0`, `b1`, `b2` are the first three MD5 digest bytes of `nome`. */
  function Add(m: seq<Enrollment>, nome: string, turma: string, docente: string,
               blocos: seq<Block>, b0: byte, b1: byte, b2: byte, n: int): (r: seq<Enrollment>)
    requires 1000 <= n <= 9999
    ensures |r| == |m| + 1
    ensures r[..|m|] == m
    ensures var e := r[|m|];
            && e.componente == nome && e.turma == turma && e.docente == docente
            && e.blocos == blocos && e.cor == ColourOf(b0, b1, b2)
            && e.id == MakeId(nome, turma, n)
  {
    m + [Enrollment(MakeId(nome, turma, n), nome, turma, docente, blocos, ColourOf(b0, b1, b2))]
  }

  /** `remover_matricula`: the list without the enrollments whose id is
      `id`, in their original order. */
  function Remove(m: seq<Enrollment>, id: string): (r: seq<Enrollment>)
    ensures |r| <= |m|
  {
    if m == [] then []
    else (if m[0].id == id then [] else [m[0]]) + Remove(m[1..], id)
  }

  /** What removal keeps: no enrollment with the id, every other
      enrollment, and nothing that was not there. */
  lemma {:induction false} RemoveContents(m: seq<Enrollment>, id: string)
    ensures forall k :: 0 <= k < |Remove(m, id)| ==> Remove(m, id)[k].id != id
    ensures forall e :: e in Remove(m, id) <==> e in m && e.id != id
  {
    if m != [] {
      var head := if m[0].id == id then [] else [m[0]];
      var rest := Remove(m[1..], id);
      RemoveContents(m[1..], id);
      assert Remove(m, id) == head + rest;
      assert forall e :: e in m <==> e == m[0] || e in m[1..];
    }
  }

  predicate HasId(m: seq<Enrollment>, id: string) {
    exists k :: 0 <= k < |m| && m[k].id == id
  }

  /** Removing works element by element: removing from `a + b` removes from
      each part and keeps them in order. */
  lemma {:induction false} RemoveAppend(a: seq<Enrollment>, b: seq<Enrollment>, id: string)
    ensures Remove(a + b, id) == Remove(a, id) + Remove(b, id)
  {
    if a == [] {
      assert a + b == b;
    } else {
      assert (a + b)[0] == a[0];
      assert (a + b)[1..] == a[1..] + b;
      RemoveAppend(a[1..], b, id);
    }
  }

  /** Removing an id nobody has changes nothing. */
  lemma {:induction false} RemoveAbsent(m: seq<Enrollment>, id: string)
    requires !HasId(m, id)
    ensures Remove(m, id) == m
  {
    if m != [] {
      assert m[0].id != id;
      assert !HasId(m[1..], id) by {
        forall k | 0 <= k < |m| - 1
          ensures m[1..][k].id != id
        {
          assert m[1..][k] == m[k + 1];
        }
      }
      RemoveAbsent(m[1..], id);
      assert [m[0]] + m[1..] == m;
    }
  }

  /** Removing twice is removing once. */
  lemma RemoveIdempotent(m: seq<Enrollment>, id: string)
    ensures Remove(Remove(m, id), id) == Remove(m, id)
  {
    RemoveContents(m, id);
    RemoveAbsent(Remove(m, id), id);
  }

  /** Removing an enrollment just added, under an id no earlier enrollment
      has, gives back the list as it was. */
  lemma RemoveUndoesAdd(m: seq<Enrollment>, nome: string, turma: string, docente: string,
                        blocos: seq<Block>, b0: byte, b1: byte, b2: byte, n: int)
    requires 1000 <= n <= 9999
    requires !HasId(m, MakeId(nome, turma, n))
    ensures Remove(Add(m, nome, turma, docente, blocos, b0, b1, b2, n), MakeId(nome, turma, n)) == m
  {
    var id := MakeId(nome, turma, n);
    var r := Add(m, nome, turma, docente, blocos, b0, b1, b2, n);
    assert r == m + [r[|m|]];
    RemoveAppend(m, [r[|m|]], id);
    RemoveAbsent(m, id);
    assert Remove([r[|m|]], id) == [];
  }

  /** The union of the enrolled blocks (`blocos_ocupados`). */
  function Occupied(m: seq<Enrollment>): (r: set<Block>)
    ensures forall b :: b in r <==> exists k :: 0 <= k < |m| && b in m[k].blocos
  {
    if m == [] then {}
    else
      var rest := Occupied(m[1..]);
      assert forall k :: 1 <= k < |m| ==> m[k] == m[1..][k - 1];
      (set b | b in m[0].blocos) + rest
  }
}

=== FILE: grid.dfy ===
/** The timetable `construir_grade_visual`: a grid of 17 hour rows (7h to
    23h) by 7 day columns (Sunday first), filled by writing every block of
    every enrollment, in list order, into its cell. A cell written once
    shows the section and takes its colour; a cell written again gets the
    new short name appended and the conflict style. */
module Grid {
  import opened Text
  import opened Tables
  import opened Enrollments

  /** How a cell is drawn: not at all, in an enrollment's colour, or in the
      red conflict style. The CSS text of each style is not modelled. */
  datatype Style = NoStyle | Tint(cor: string) | Clash

  datatype Cell = Cell(text: string, style: Style)

  const EmptyCell: Cell := Cell("", NoStyle)

  /** What an enrollment writes into a cell: its short name, its section
      and its colour. */
  datatype Pen = Pen(short: string, turma: string, cor: string)

  /** A grid has 17 rows of 7 cells. */
  predicate Shaped(g: seq<seq<Cell>>) {
    |g| == HourRows && forall r :: 0 <= r < |g| ==> |g[r]| == DayColumns
  }

  /** Every block names a day column that exists. */
  predicate DaysInRange(m: seq<Enrollment>) {
    forall k, j :: 0 <= k < |m| && 0 <= j < |m[k].blocos| ==>
      0 <= m[k].blocos[j].day < DayColumns
  }

  function EmptyGrid(): (g: seq<seq<Cell>>)
    ensures Shaped(g)
    ensures forall r, c :: 0 <= r < HourRows && 0 <= c < DayColumns ==> g[r][c] == EmptyCell
  {
    seq(HourRows, _ => seq(DayColumns, _ => EmptyCell))
  }

  /** The position of the first '-' of a text that has one. */
  function FirstDash(s: string): (d: nat)
    requires '-' in s
    ensures d < |s| && s[d] == '-' && '-' !in s[..d]
  {
    if s[0] == '-' then 0
    else
      assert '-' in s[1..];
      var d := FirstDash(s[1..]) + 1;
      assert s[..d] == [s[0]] + s[1..][..d - 1];
      d
  }

  /** The name shown in the grid: the stripped text before the first '-' when
      the name has one, the whole name otherwise. */
  function ShortName(nome: string): (r: string)
    ensures '-' !in nome ==> r == nome
    ensures '-' in nome ==>
              && '-' !in r
              && Trimmed(r)
              && exists d :: 0 <= d < |nome| && nome[d] == '-' && '-' !in nome[..d]
                             && r == Strip(nome[..d])
  {
    if '-' in nome then
      var d := FirstDash(nome);
      Strip(nome[..d])
    else nome
  }

  function PenOf(e: Enrollment): Pen {
    Pen(ShortName(e.componente), e.turma, e.cor)
  }

  /** The text of a cell written once: the short name, a line break and the
      section in parentheses. */
  function Label(p: Pen): (r: string)
    ensures r != []
  {
    p.short + "\n(" + p.turma + ")"
  }

  /** One write into a cell. */
  function WriteCell(c: Cell, p: Pen): (r: Cell)
    ensures r.text != []
    ensures c.text == [] ==> r == Cell(Label(p), Tint(p.cor))
    ensures c.text != [] ==> r == Cell(c.text + " | " + p.short, Clash)
  {
    if c.text != [] then Cell(c.text + " | " + p.short, Clash)
    else Cell(Label(p), Tint(p.cor))
  }

  /** Writes one block: hours outside 7..23 are skipped. */
  function WriteBlock(g: seq<seq<Cell>>, b: Block, p: Pen): (r: seq<seq<Cell>>)
    requires Shaped(g) && 0 <= b.day < DayColumns
    ensures Shaped(r)
  {
    if FirstHour <= b.hour <= LastHour then
      var row := b.hour - FirstHour;
      g[row := g[row][b.day := WriteCell(g[row][b.day], p)]]
    else g
  }

  /** Writes the blocks of one enrollment in order. */
  function WriteBlocks(g: seq<seq<Cell>>, bs: seq<Block>, p: Pen): (r: seq<seq<Cell>>)
    requires Shaped(g)
    requires forall j :: 0 <= j < |bs| ==> 0 <= bs[j].day < DayColumns
    ensures Shaped(r)
    decreases |bs|
  {
    if bs == [] then g else WriteBlocks(WriteBlock(g, bs[0], p), bs[1..], p)
  }

  /** Writes the enrollments in list order. */
  function Render(g: seq<seq<Cell>>, m: seq<Enrollment>): (r: seq<seq<Cell>>)
    requires Shaped(g) && DaysInRange(m)
    ensures Shaped(r)
    decreases |m|
  {
    if m == [] then g
    else
      assert forall j :: 0 <= j < |m[0].blocos| ==> 0 <= m[0].blocos[j].day < DayColumns;
      assert DaysInRange(m[1..]) by {
        assert forall k :: 0 <= k < |m| - 1 ==> m[1..][k] == m[k + 1];
      }
      Render(WriteBlocks(g, m[0].blocos, PenOf(m[0])), m[1..])
  }

  /** `construir_grade_visual`: the grid of the enrollment list. */
  function Build(m: seq<Enrollment>): (r: seq<seq<Cell>>)
    requires DaysInRange(m)
    ensures Shaped(r)
  {
    Render(EmptyGrid(), m)
  }

  // ---------------------------------------------------------------------
  // A cell is the result of the writes that reach it

  /** How many times block `b` appears over all enrollments, repetitions
      within one enrollment included. */
  function Multiplicity(m: seq<Enrollment>, b: Block): nat {
    if m == [] then 0 else multiset(m[0].blocos)[b] + Multiplicity(m[1..], b)
  }

  /** The pens that write cell (`day`, `hour`) while the blocks `bs` of one
      enrollment are drawn with pen `p`: one per block equal to it. */
  function PensAt(bs: seq<Block>, p: Pen, day: int, hour: int): (r: seq<Pen>)
    ensures |r| == multiset(bs)[Block(day, hour)]
    ensures forall k :: 0 <= k < |r| ==> r[k] == p
  {
    if bs == [] then []
    else
      assert bs == [bs[0]] + bs[1..];
      (if bs[0] == Block(day, hour) then [p] else []) + PensAt(bs[1..], p, day, hour)
  }

  /** The pens that write cell (`day`, `hour`) while the list `m` is drawn,
      in the order they write. */
  function WritesAt(m: seq<Enrollment>, day: int, hour: int): (r: seq<Pen>)
    ensures |r| == Multiplicity(m, Block(day, hour))
  {
    if m == [] then [] else PensAt(m[0].blocos, PenOf(m[0]), day, hour) + WritesAt(m[1..], day, hour)
  }

  /** A cell after a sequence of writes. */
  function ApplyAll(c: Cell, ws: seq<Pen>): Cell
    decreases |ws|
  {
    if ws == [] then c else ApplyAll(WriteCell(c, ws[0]), ws[1..])
  }

  /** The short names of the later writes, each after a " | ". */
  function Appended(ws: seq<Pen>): string {
    if ws == [] then [] else " | " + ws[0].short + Appended(ws[1..])
  }

  lemma {:induction false} ApplyAllAppend(c: Cell, a: seq<Pen>, b: seq<Pen>)
    ensures ApplyAll(c, a + b) == ApplyAll(ApplyAll(c, a), b)
    decreases |a|
  {
    if a == [] {
      assert a + b == b;
    } else {
      assert (a + b)[0] == a[0];
      assert (a + b)[1..] == a[1..] + b;
      ApplyAllAppend(WriteCell(c, a[0]), a[1..], b);
    }
  }

  /** Writes into a cell that already has text only append to it and make
      it a conflict. */
  lemma {:induction false} ApplyToWritten(c: Cell, ws: seq<Pen>)
    requires c.text != []
    ensures ApplyAll(c, ws).text == c.text + Appended(ws)
    ensures ApplyAll(c, ws).style == if ws == [] then c.style else Clash
    decreases |ws|
  {
    if ws != [] {
      var c' := WriteCell(c, ws[0]);
      ApplyToWritten(c', ws[1..]);
      assert c'.text + Appended(ws[1..]) == c.text + Appended(ws);
    }
  }

  /** An empty cell after writes: still empty with no write; the first
      writer's text and colour after one; the first writer's text with the
      later short names appended, in the conflict style, after several. */
  lemma {:induction false} ApplyToEmpty(ws: seq<Pen>)
    ensures ws == [] ==> ApplyAll(EmptyCell, ws) == EmptyCell
    ensures |ws| == 1 ==> ApplyAll(EmptyCell, ws) == Cell(Label(ws[0]), Tint(ws[0].cor))
    ensures |ws| >= 2 ==> ApplyAll(EmptyCell, ws) == Cell(Label(ws[0]) + Appended(ws[1..]), Clash)
  {
    if ws != [] {
      ApplyToWritten(WriteCell(EmptyCell, ws[0]), ws[1..]);
    }
  }

  /** Drawing one block changes only its own cell, and that by one write
      when the hour is shown. */
  lemma WriteBlockAt(g: seq<seq<Cell>>, b: Block, p: Pen, row: int, col: int)
    requires Shaped(g) && 0 <= b.day < DayColumns
    requires 0 <= row < HourRows && 0 <= col < DayColumns
    ensures WriteBlock(g, b, p)[row][col]
            == ApplyAll(g[row][col], if b == Block(col, row + FirstHour) then [p] else [])
  {
  }

  lemma {:induction false} WriteBlocksAt(g: seq<seq<Cell>>, bs: seq<Block>, p: Pen, row: int, col: int)
    requires Shaped(g)
    requires forall j :: 0 <= j < |bs| ==> 0 <= bs[j].day < DayColumns
    requires 0 <= row < HourRows && 0 <= col < DayColumns
    ensures WriteBlocks(g, bs, p)[row][col] == ApplyAll(g[row][col], PensAt(bs, p, col, row + FirstHour))
    decreases |bs|
  {
    if bs != [] {
      var g' := WriteBlock(g, bs[0], p);
      var here := if bs[0] == Block(col, row + FirstHour) then [p] else [];
      WriteBlockAt(g, bs[0], p, row, col);
      WriteBlocksAt(g', bs[1..], p, row, col);
      ApplyAllAppend(g[row][col], here, PensAt(bs[1..], p, col, row + FirstHour));
    }
  }

  lemma {:induction false} RenderAt(g: seq<seq<Cell>>, m: seq<Enrollment>, row: int, col: int)
    requires Shaped(g) && DaysInRange(m)
    requires 0 <= row < HourRows && 0 <= col < DayColumns
    ensures Render(g, m)[row][col] == ApplyAll(g[row][col], WritesAt(m, col, row + FirstHour))
    decreases |m|
  {
    if m != [] {
      assert forall j :: 0 <= j < |m[0].blocos| ==> 0 <= m[0].blocos[j].day < DayColumns;
      assert DaysInRange(m[1..]) by {
        assert forall k :: 0 <= k < |m| - 1 ==> m[1..][k] == m[k + 1];
      }
      var g' := WriteBlocks(g, m[0].blocos, PenOf(m[0]));
      WriteBlocksAt(g, m[0].blocos, PenOf(m[0]), row, col);
      RenderAt(g', m[1..], row, col);
      ApplyAllAppend(g[row][col], PensAt(m[0].blocos, PenOf(m[0]), col, row + FirstHour),
                     WritesAt(m[1..], col, row + FirstHour));
    }
  }

  // ---------------------------------------------------------------------
  // Who writes a cell

  /** The first pen to write a block's cell belongs to the first enrollment
      that has the block. */
  lemma {:induction false} FirstWriter(m: seq<Enrollment>, b: Block, k: int)
    requires 0 <= k < |m| && b in m[k].blocos
    requires forall j :: 0 <= j < k ==> b !in m[j].blocos
    ensures Multiplicity(m, b) > 0
    ensures WritesAt(m, b.day, b.hour)[0] == PenOf(m[k])
  {
    if k == 0 {
      assert multiset(m[0].blocos)[b] > 0;
    } else {
      assert b !in m[0].blocos;
      assert multiset(m[0].blocos)[b] == 0;
      assert forall j :: 0 <= j < k - 1 ==> m[1..][j] == m[j + 1];
      assert m[1..][k - 1] == m[k];
      FirstWriter(m[1..], b, k - 1);
    }
  }

  lemma {:induction false} MultiplicityPositive(m: seq<Enrollment>, b: Block)
    ensures Multiplicity(m, b) > 0 <==> exists k :: 0 <= k < |m| && b in m[k].blocos
  {
    if m != [] {
      MultiplicityPositive(m[1..], b);
      if Multiplicity(m[1..], b) > 0 {
        var k :| 0 <= k < |m| - 1 && b in m[1..][k].blocos;
        assert b in m[k + 1].blocos;
      }
      if exists k :: 0 <= k < |m| && b in m[k].blocos {
        var k :| 0 <= k < |m| && b in m[k].blocos;
        if k > 0 {
          assert m[1..][k - 1] == m[k];
        }
      }
    }
  }

  // ---------------------------------------------------------------------
  // The cells of the timetable

  /** Each cell of the timetable, by how many times its block is listed
      (`n`): empty when no enrollment lists it; the first enrollment's
      text and colour when listed once; when listed twice or more — by two
      enrollments or twice by the same one — the conflict style, with the
      first writer's text followed by the later short names. */
  lemma BuildCell(m: seq<Enrollment>, row: int, col: int)
    requires DaysInRange(m)
    requires 0 <= row < HourRows && 0 <= col < DayColumns
    ensures var b := Block(col, row + FirstHour);
            var ws := WritesAt(m, col, row + FirstHour);
            var c := Build(m)[row][col];
            && |ws| == Multiplicity(m, b)
            && (c.text != [] <==> exists k :: 0 <= k < |m| && b in m[k].blocos)
            && (Multiplicity(m, b) == 0 ==> c == EmptyCell)
            && (Multiplicity(m, b) == 1 ==> c == Cell(Label(ws[0]), Tint(ws[0].cor)))
            && (Multiplicity(m, b) >= 2 ==> c == Cell(Label(ws[0]) + Appended(ws[1..]), Clash))
            && (c.style == Clash <==> Multiplicity(m, b) >= 2)
  {
    var b := Block(col, row + FirstHour);
    var ws := WritesAt(m, col, row + FirstHour);
    RenderAt(EmptyGrid(), m, row, col);
    MultiplicityPositive(m, b);
    ApplyToEmpty(ws);
  }

  /** The cell of a listed block is drawn by the first enrollment that
      lists it: its text opens the cell's text and, when nobody else
      writes there, its colour is the cell's. */
  lemma BuildCellOwner(m: seq<Enrollment>, b: Block, k: int)
    requires DaysInRange(m)
    requires 0 <= b.day < DayColumns && FirstHour <= b.hour <= LastHour
    requires 0 <= k < |m| && b in m[k].blocos
    requires forall j :: 0 <= j < k ==> b !in m[j].blocos
    ensures var c := Build(m)[b.hour - FirstHour][b.day];
            && |Label(PenOf(m[k]))| <= |c.text|
            && c.text[..|Label(PenOf(m[k]))|] == Label(PenOf(m[k]))
            && (Multiplicity(m, b) == 1 <==> c.style == Tint(m[k].cor))
  {
    var row := b.hour - FirstHour;
    assert b == Block(b.day, row + FirstHour);
    FirstWriter(m, b, k);
    BuildCell(m, row, b.day);
  }

  /** One enrollment listing the same shown block twice conflicts with
      itself: its cell takes the conflict style. */
  lemma SelfConflict(e: Enrollment, b: Block)
    requires DaysInRange([e])
    requires 0 <= b.day < DayColumns && FirstHour <= b.hour <= LastHour
    requires multiset(e.blocos)[b] >= 2
    ensures Build([e])[b.hour - FirstHour][b.day].style == Clash
  {
    assert Multiplicity([e], b) == multiset(e.blocos)[b];
    assert b == Block(b.day, b.hour - FirstHour + FirstHour);
    BuildCell([e], b.hour - FirstHour, b.day);
  }

  /** Blocks at hours the grid does not show leave it unchanged. */
  lemma HiddenHoursIgnored(m: seq<Enrollment>, e: Enrollment)
    requires DaysInRange(m) && DaysInRange(m + [e])
    requires forall j :: 0 <= j < |e.blocos| ==> !(FirstHour <= e.blocos[j].hour <= LastHour)
    ensures Build(m + [e]) == Build(m)
  {
    forall row, col | 0 <= row < HourRows && 0 <= col < DayColumns
      ensures Build(m + [e])[row][col] == Build(m)[row][col]
    {
      HiddenCell(m, e, row, col);
    }
    SameCells(Build(m + [e]), Build(m));
  }

  lemma HiddenCell(m: seq<Enrollment>, e: Enrollment, row: int, col: int)
    requires DaysInRange(m) && DaysInRange(m + [e])
    requires forall j :: 0 <= j < |e.blocos| ==> !(FirstHour <= e.blocos[j].hour <= LastHour)
    requires 0 <= row < HourRows && 0 <= col < DayColumns
    ensures Build(m + [e])[row][col] == Build(m)[row][col]
  {
    var b := Block(col, row + FirstHour);
    RenderAt(EmptyGrid(), m + [e], row, col);
    RenderAt(EmptyGrid(), m, row, col);
    WritesAtAppend(m, [e], col, row + FirstHour);
    assert b !in e.blocos;
    assert multiset(e.blocos)[b] == 0;
    assert WritesAt([e], col, row + FirstHour) == [];
    assert WritesAt(m + [e], col, row + FirstHour) == WritesAt(m, col, row + FirstHour);
  }

  lemma {:induction false} WritesAtAppend(a: seq<Enrollment>, b: seq<Enrollment>, day: int, hour: int)
    ensures WritesAt(a + b, day, hour) == WritesAt(a, day, hour) + WritesAt(b, day, hour)
  {
    if a == [] {
      assert a + b == b;
    } else {
      assert (a + b)[0] == a[0];
      assert (a + b)[1..] == a[1..] + b;
      WritesAtAppend(a[1..], b, day, hour);
    }
  }

  /** Two grids with the same cells are the same grid. */
  lemma SameCells(g: seq<seq<Cell>>, h: seq<seq<Cell>>)
    requires Shaped(g) && Shaped(h)
    requires forall r, c :: 0 <= r < HourRows && 0 <= c < DayColumns ==> g[r][c] == h[r][c]
    ensures g == h
  {
    forall r | 0 <= r < HourRows ensures g[r] == h[r] {
      assert |g[r]| == |h[r]| == DayColumns;
    }
  }
}

=== FILE: sorting.dfy ===
/** Ascending sort of a list of hours (Python's `list.sort()` on ints),
    written as insertion sort. */
module Sorting {

  predicate Sorted(s: seq<int>) {
    forall i, j :: 0 <= i < j < |s| ==> s[i] <= s[j]
  }

  /** Inserts `x` into a sorted list, keeping it sorted. */
  function Insert(x: int, s: seq<int>): (r: seq<int>)
    requires Sorted(s)
    ensures Sorted(r)
    ensures multiset(r) == multiset(s) + multiset{x}
    ensures |r| == |s| + 1
  {
    if s == [] || x <= s[0] then
      ConsSorted(x, s);
      [x] + s
    else
      var u := s[1..];
      assert s == [s[0]] + u;
      TailOf(s);
      assert forall k :: 0 <= k < |u| ==> s[0] <= u[k] by {
        assert forall k :: 0 <= k < |u| ==> u[k] == s[k + 1];
      }
      var t := Insert(x, u);
      LowerBoundKept(s[0], u, x, t);
      ConsSorted(s[0], t);
      [s[0]] + t
  }

  /** A sorted list stays sorted under a head no larger than its elements. */
  lemma ConsSorted(a: int, t: seq<int>)
    requires Sorted(t)
    requires forall k :: 0 <= k < |t| ==> a <= t[k]
    ensures Sorted([a] + t)
  {
    forall i, j | 0 <= i < j < |[a] + t|
      ensures ([a] + t)[i] <= ([a] + t)[j]
    {
      assert ([a] + t)[j] == t[j - 1];
      if i > 0 {
        assert ([a] + t)[i] == t[i - 1];
      }
    }
  }

  /** A lower bound of `u` and of `x` bounds every permutation of `u` plus `x`. */
  lemma LowerBoundKept(a: int, u: seq<int>, x: int, t: seq<int>)
    requires forall k :: 0 <= k < |u| ==> a <= u[k]
    requires a <= x
    requires multiset(t) == multiset(u) + multiset{x}
    ensures forall k :: 0 <= k < |t| ==> a <= t[k]
  {
    forall k | 0 <= k < |t| ensures a <= t[k] {
      assert t[k] in multiset(t);
      if t[k] != x {
        assert t[k] in multiset(u);
        assert t[k] in u;
      }
    }
  }

  /** The list in ascending order: a sorted permutation of its input. */
  function Sort(s: seq<int>): (r: seq<int>)
    ensures Sorted(r)
    ensures multiset(r) == multiset(s)
    ensures |r| == |s|
  {
    if s == [] then []
    else
      assert s == [s[0]] + s[1..];
      Insert(s[0], Sort(s[1..]))
  }

  /** Sorting is determined by the multiset: two sorted permutations of the
      same list are equal, so `Sort` agrees with any other correct sort. */
  lemma {:induction false} SortedUnique(a: seq<int>, b: seq<int>)
    requires Sorted(a) && Sorted(b)
    requires multiset(a) == multiset(b)
    ensures a == b
    decreases |a|
  {
    assert |a| == |multiset(a)| == |multiset(b)| == |b|;
    if a != [] {
      assert a[0] in b by {
        assert a[0] in multiset(b);
      }
      assert b[0] in a by {
        assert b[0] in multiset(a);
      }
      assert a[0] == b[0];
      TailOf(a);
      TailOf(b);
      SortedUnique(a[1..], b[1..]);
    }
  }

  /** The tail of a list: its multiset loses the head, and it stays sorted. */
  lemma TailOf(s: seq<int>)
    requires s != []
    ensures multiset(s[1..]) == multiset(s) - multiset{s[0]}
    ensures Sorted(s) ==> Sorted(s[1..])
  {
    assert s == [s[0]] + s[1..];
    if Sorted(s) {
      assert forall i :: 0 <= i < |s| - 1 ==> s[1..][i] == s[i + 1];
    }
  }
}

=== FILE: tables.dfy ===
/** The fixed tables of the planner: the week's day names, the hour rows of
    the grid, the SIGAA day digits and the SIGAA shift/slot digits. */
module Tables {
  import opened Wrappers

  /** Day names, indexed 0 (Sunday) to 6 (Saturday). */
  const DiasSemana: seq<string> :=
    ["Domingo", "Segunda", "Terça", "Quarta", "Quinta", "Sexta", "Sábado"]

  /** The grid's hour rows, 7:00 to 23:00 inclusive. */
  const FirstHour: int := 7
  const LastHour: int := 23
  const HourRows: nat := 17
  const DayColumns: nat := 7

  /** SIGAA day digit to day index: 2 is Monday ... 7 is Saturday. */
  function DayIndex(c: char): (r: Option<nat>)
    ensures r.Some? <==> '2' <= c <= '7'
    ensures r.Some? ==> 1 <= r.value <= 6 && r.value < |DiasSemana|
    ensures r.Some? ==> r.value == (c as int) - ('1' as int)
  {
    match c
    case '2' => Some(1)
    case '3' => Some(2)
    case '4' => Some(3)
    case '5' => Some(4)
    case '6' => Some(5)
    case '7' => Some(6)
    case _ => None
  }

  /** The first hour of each shift: morning, afternoon, night. */
  function ShiftStart(shift: char): int {
    if shift == 'M' then 7 else if shift == 'T' then 13 else 19
  }

  /** The number of slots each shift's table lists. */
  function ShiftSlots(shift: char): nat {
    if shift == 'M' then 5 else if shift == 'T' then 6 else if shift == 'N' then 4 else 0
  }

  /** SIGAA slot digit of a shift to the hour the slot starts at. The
      morning lists slots 1-5, the afternoon 1-6, the night 1-4; any other
      shift letter or slot digit has no entry. */
  function SlotHour(shift: char, c: char): (r: Option<int>)
    ensures r.Some? <==> '1' <= c && (c as int) - ('1' as int) < ShiftSlots(shift)
    ensures r.Some? ==> r.value == ShiftStart(shift) + (c as int) - ('1' as int)
    ensures r.Some? ==> 7 <= r.value <= 22
  {
    match shift
    case 'M' =>
      (match c
       case '1' => Some(7)
       case '2' => Some(8)
       case '3' => Some(9)
       case '4' => Some(10)
       case '5' => Some(11)
       case _ => None)
    case 'T' =>
      (match c
       case '1' => Some(13)
       case '2' => Some(14)
       case '3' => Some(15)
       case '4' => Some(16)
       case '5' => Some(17)
       case '6' => Some(18)
       case _ => None)
    case 'N' =>
      (match c
       case '1' => Some(19)
       case '2' => Some(20)
       case '3' => Some(21)
       case '4' => Some(22)
       case _ => None)
    case _ => None
  }
}

=== FILE: text.dfy ===
/** The string operations the planner borrows from Python: `str.isspace`,
    `str.split()` with no separator, `str.strip()` with no argument and
    `str.replace(pattern, '')`. */
module Text {

  /** Python's `str.isspace` for one character: the ASCII controls
      \t \n \v \f \r, the separators \x1c-\x1f, the space, \x85, and the
      Unicode space separators. */
  predicate IsSpace(c: char) {
    || ('\U{9}' <= c <= '\U{D}')
    || ('\U{1C}' <= c <= '\U{20}')
    || c == '\U{85}' || c == '\U{A0}' || c == '\U{1680}'
    || ('\U{2000}' <= c <= '\U{200A}')
    || c == '\U{2028}' || c == '\U{2029}' || c == '\U{202F}'
    || c == '\U{205F}' || c == '\U{3000}'
  }

  predicate AllSpace(s: string) {
    forall i :: 0 <= i < |s| ==> IsSpace(s[i])
  }

  predicate NoSpace(s: string) {
    forall i :: 0 <= i < |s| ==> !IsSpace(s[i])
  }

  /** No whitespace at either end: what `strip()` leaves. */
  predicate Trimmed(s: string) {
    s == [] || (!IsSpace(s[0]) && !IsSpace(s[|s| - 1]))
  }

  /** A field of `str.split()`: non-empty and free of whitespace. */
  predicate IsWord(w: string) {
    w != [] && NoSpace(w)
  }

  /** The characters of `s` that are not whitespace, in order. */
  function NonSpace(s: string): (r: string)
    ensures NoSpace(r)
    ensures |r| <= |s|
  {
    if s == [] then []
    else (if IsSpace(s[0]) then [] else [s[0]]) + NonSpace(s[1..])
  }

  /** Concatenation of a list of strings. */
  function Flatten(ws: seq<string>): string {
    if ws == [] then [] else ws[0] + Flatten(ws[1..])
  }

  // ---------------------------------------------------------------------
  // split()

  function Flush(word: string): (r: seq<string>)
    requires NoSpace(word)
    ensures forall k :: 0 <= k < |r| ==> IsWord(r[k])
  {
    if word == [] then [] else [word]
  }

  /** Scans `s` with `word` the field gathered so far; a whitespace
      character ends the current field, runs of whitespace give no empty
      fields. */
  function SplitFrom(s: string, word: string): (r: seq<string>)
    requires NoSpace(word)
    ensures forall k :: 0 <= k < |r| ==> IsWord(r[k])
    decreases |s|
  {
    if s == [] then Flush(word)
    else if IsSpace(s[0]) then Flush(word) + SplitFrom(s[1..], [])
    else SplitFrom(s[1..], word + [s[0]])
  }

  /** `s.split()`: the maximal runs of non-whitespace characters. */
  function Split(s: string): (r: seq<string>)
    ensures forall k :: 0 <= k < |r| ==> IsWord(r[k])
  {
    SplitFrom(s, [])
  }

  lemma {:induction false} FlattenAppend(a: seq<string>, b: seq<string>)
    ensures Flatten(a + b) == Flatten(a) + Flatten(b)
  {
    if a == [] {
      assert a + b == b;
    } else {
      assert (a + b)[0] == a[0];
      assert (a + b)[1..] == a[1..] + b;
      FlattenAppend(a[1..], b);
      assert Flatten(a + b) == a[0] + Flatten(a[1..] + b);
    }
  }

  lemma {:induction false} SplitFromFlatten(s: string, word: string)
    requires NoSpace(word)
    ensures Flatten(SplitFrom(s, word)) == word + NonSpace(s)
    decreases |s|
  {
    if s == [] {
    } else if IsSpace(s[0]) {
      SplitFromFlatten(s[1..], []);
      FlattenAppend(Flush(word), SplitFrom(s[1..], []));
    } else {
      SplitFromFlatten(s[1..], word + [s[0]]);
    }
  }

  /** Splitting loses no character but whitespace: the fields, put back
      together, are the input with its whitespace removed. */
  lemma SplitKeepsText(s: string)
    ensures Flatten(Split(s)) == NonSpace(s)
  {
    SplitFromFlatten(s, []);
  }

  lemma {:induction false} NonSpaceEmpty(s: string)
    ensures NonSpace(s) == [] <==> AllSpace(s)
  {
    if s != [] {
      NonSpaceEmpty(s[1..]);
      if !IsSpace(s[0]) {
        assert NonSpace(s)[0] == s[0];
      } else {
        assert forall i :: 1 <= i < |s| ==> s[i] == s[1..][i - 1];
      }
    }
  }

  lemma FlattenOfWordsEmpty(ws: seq<string>)
    requires forall k :: 0 <= k < |ws| ==> IsWord(ws[k])
    ensures Flatten(ws) == [] <==> ws == []
  {
    if ws != [] {
      assert |Flatten(ws)| >= |ws[0]| > 0;
    }
  }

  /** `split()` returns no field exactly when the input is blank. */
  lemma SplitBlank(s: string)
    ensures Split(s) == [] <==> AllSpace(s)
  {
    SplitKeepsText(s);
    NonSpaceEmpty(s);
    FlattenOfWordsEmpty(Split(s));
  }

  lemma {:induction false} SplitFromAcrossSpace(a: string, c: char, b: string, word: string)
    requires IsSpace(c)
    requires NoSpace(word)
    ensures SplitFrom(a + [c] + b, word) == SplitFrom(a, word) + SplitFrom(b, [])
    decreases |a|
  {
    if a == [] {
      assert a + [c] + b == [c] + b;
      assert ([c] + b)[1..] == b;
    } else {
      assert (a + [c] + b)[0] == a[0];
      assert (a + [c] + b)[1..] == a[1..] + [c] + b;
      if IsSpace(a[0]) {
        SplitFromAcrossSpace(a[1..], c, b, []);
      } else {
        SplitFromAcrossSpace(a[1..], c, b, word + [a[0]]);
      }
    }
  }

  /** A whitespace character separates the fields on its two sides: the
      fields of `a c b` are the fields of `a` followed by those of `b`. */
  lemma SplitAcrossSpace(a: string, c: char, b: string)
    requires IsSpace(c)
    ensures Split(a + [c] + b) == Split(a) + Split(b)
  {
    SplitFromAcrossSpace(a, c, b, []);
  }

  /** A string with no whitespace is one field (or none when empty). */
  lemma {:induction false} SplitFromWord(w: string, word: string)
    requires NoSpace(w)
    requires NoSpace(word)
    ensures SplitFrom(w, word) == Flush(word + w)
    decreases |w|
  {
    if w == [] {
      assert word + w == word;
    } else {
      assert word + [w[0]] + w[1..] == word + w;
      SplitFromWord(w[1..], word + [w[0]]);
    }
  }

  lemma SplitWord(w: string)
    requires IsWord(w)
    ensures Split(w) == [w]
  {
    SplitFromWord(w, []);
    assert [] + w == w;
  }

  // ---------------------------------------------------------------------
  // strip()

  /** The number of leading whitespace characters. */
  function Lead(s: string): (n: nat)
    ensures n <= |s|
    ensures forall k :: 0 <= k < n ==> IsSpace(s[k])
    ensures n < |s| ==> !IsSpace(s[n])
  {
    if s == [] || !IsSpace(s[0]) then 0 else 1 + Lead(s[1..])
  }

  /** The number of trailing whitespace characters. */
  function Trail(s: string): (n: nat)
    ensures n <= |s|
    ensures forall k :: |s| - n <= k < |s| ==> IsSpace(s[k])
    ensures n < |s| ==> !IsSpace(s[|s| - n - 1])
  {
    if s == [] || !IsSpace(s[|s| - 1]) then 0 else 1 + Trail(s[..|s| - 1])
  }

  /** `s.strip()`: the input with whitespace removed at both ends. The
      result is a slice of the input, everything cut off is whitespace,
      and neither end of the result is whitespace. */
  function Strip(s: string): (r: string)
    ensures exists i :: 0 <= i && i + |r| <= |s| && r == s[i..i + |r|]
                        && AllSpace(s[..i]) && AllSpace(s[i + |r|..])
    ensures Trimmed(r)
    ensures forall k :: 0 <= k < |r| ==> r[k] in s
  {
    var i := Lead(s);
    var e := if i == |s| then i else |s| - Trail(s);
    StripBounds(s, i, e);
    SliceOf(s, i, e);
    s[i..e]
  }

  /** A slice `s[i..e]` starts at `s[i]`, ends at `s[e - 1]` and holds only
      characters of `s`. */
  lemma SliceOf(s: string, i: nat, e: nat)
    requires i <= e <= |s|
    ensures var r := s[i..e];
            && i + |r| == e && r == s[i..i + |r|]
            && (r != [] ==> r[0] == s[i] && r[|r| - 1] == s[e - 1])
            && forall k :: 0 <= k < |r| ==> r[k] in s
  {
    assert forall k :: 0 <= k < e - i ==> s[i..e][k] == s[i + k];
  }

  /** The cut points of `strip()`: whitespace before `i` and from `e` on,
      and none at either end of what lies between. */
  lemma StripBounds(s: string, i: nat, e: nat)
    requires i == Lead(s)
    requires e == if i == |s| then i else |s| - Trail(s)
    ensures i <= e <= |s|
    ensures AllSpace(s[..i]) && AllSpace(s[e..])
    ensures i < e ==> !IsSpace(s[i]) && !IsSpace(s[e - 1])
  {
    LeadSpace(s);
    if i == |s| {
      assert s[e..] == [];
    } else {
      var n := Trail(s);
      TrailBefore(s, i);
      TrailSpace(s);
      assert e - 1 == |s| - n - 1;
    }
  }

  lemma LeadSpace(s: string)
    ensures AllSpace(s[..Lead(s)])
  {
    var n := Lead(s);
    forall k | 0 <= k < n
      ensures IsSpace(s[..n][k])
    {
      assert s[..n][k] == s[k];
    }
  }

  lemma TrailSpace(s: string)
    ensures AllSpace(s[|s| - Trail(s)..])
  {
    var e := |s| - Trail(s);
    forall k | 0 <= k < |s| - e
      ensures IsSpace(s[e..][k])
    {
      assert s[e..][k] == s[e + k];
    }
  }

  /** Trailing whitespace stops before any non-whitespace character. */
  lemma TrailBefore(s: string, i: nat)
    requires i < |s| && !IsSpace(s[i])
    ensures Trail(s) < |s| - i
  {
  }

  /** The stripped string is empty exactly when the input is blank. */
  lemma StripBlank(s: string)
    ensures Strip(s) == [] <==> AllSpace(s)
  {
    var i := Lead(s);
    if i < |s| {
      assert !IsSpace(s[i]);
      assert |Strip(s)| == |s| - Trail(s) - i > 0;
    }
  }

  // ---------------------------------------------------------------------
  // replace(pattern, '')

  predicate OccursAt(s: string, pat: string, i: nat) {
    i + |pat| <= |s| && s[i..i + |pat|] == pat
  }

  /** `s.replace(pat, '')`: deletes the occurrences of `pat` found scanning
      left to right, each search resuming after the previous occurrence. */
  function RemoveAll(s: string, pat: string): (r: string)
    requires pat != []
    ensures |r| <= |s|
    decreases |s|
  {
    if |s| < |pat| then s
    else if s[..|pat|] == pat then RemoveAll(s[|pat|..], pat)
    else [s[0]] + RemoveAll(s[1..], pat)
  }

  /** A text free of the pattern is left as it is. */
  lemma {:induction false} RemoveAllAbsent(s: string, pat: string)
    requires pat != []
    requires forall i :: 0 <= i < |s| ==> !OccursAt(s, pat, i)
    ensures RemoveAll(s, pat) == s
    decreases |s|
  {
    if |s| >= |pat| {
      assert !OccursAt(s, pat, 0);
      forall i | 0 <= i < |s| - 1
        ensures !OccursAt(s[1..], pat, i)
      {
        if OccursAt(s[1..], pat, i) {
          assert s[1..][i..i + |pat|] == s[i + 1..i + 1 + |pat|];
          assert OccursAt(s, pat, i + 1);
        }
      }
      RemoveAllAbsent(s[1..], pat);
      assert [s[0]] + s[1..] == s;
    }
  }

  /** The first occurrence of the pattern is removed and the scan resumes
      after it: when the pattern occurs at no position inside `a`, the text
      `a + pat + b` loses exactly the `pat` after `a`. */
  lemma {:induction false} RemoveAllAfterPrefix(a: string, pat: string, b: string)
    requires pat != []
    requires forall i :: 0 <= i < |a| ==> !OccursAt(a + pat + b, pat, i)
    ensures RemoveAll(a + pat + b, pat) == a + RemoveAll(b, pat)
    decreases |a|
  {
    var s := a + pat + b;
    if a == [] {
      assert s == pat + b;
      assert s[..|pat|] == pat;
      assert s[|pat|..] == b;
    } else {
      JoinTail(a, pat, b);
      assert !OccursAt(s, pat, 0);
      assert s[..|pat|] != pat;
      assert RemoveAll(s, pat) == [a[0]] + RemoveAll(a[1..] + pat + b, pat);
      forall i | 0 <= i < |a| - 1
        ensures !OccursAt(a[1..] + pat + b, pat, i)
      {
        OccursShift(s, pat, i);
      }
      RemoveAllAfterPrefix(a[1..], pat, b);
      assert [a[0]] + a[1..] == a;
    }
  }

  /** An occurrence in the tail of a text is an occurrence one place later
      in the text. */
  lemma OccursShift(s: string, pat: string, i: nat)
    requires s != []
    ensures OccursAt(s[1..], pat, i) <==> OccursAt(s, pat, i + 1)
  {
    if i + 1 + |pat| <= |s| {
      assert s[1..][i..i + |pat|] == s[i + 1..i + 1 + |pat|];
    }
  }

  lemma JoinTail(a: string, pat: string, b: string)
    requires a != []
    ensures |a + pat + b| >= |pat| + 1
    ensures (a + pat + b)[0] == a[0]
    ensures (a + pat + b)[1..] == a[1..] + pat + b
  {
  }
}

=== FILE: wrappers.dfy ===
/** The optional value used wherever the planner looks something up in a
    table (a day digit, a slot digit) or may find nothing (a failed match). */
module Wrappers {

  datatype Option<+T> = None | Some(value: T)
}
